=== FILE: README.md ===
# NefritVPN core, modelled in Dafny

NefritVPN sells VPN access through activation keys. The project models the
decision logic of its three Python services.

- **Single-node service** (`main.py`):
  - SQLite tables of users and keys; key minting; key activation;
  - the active-user query; the key list and the statistics;
  - generation of the Xray proxy-engine config;
  - the VLESS link and the Base64 `/sub/{path}` subscription;
  - the WebSocket relay loops of `/vless`.
- **Fleet nodes** (`master/main.py`, `worker/main.py`):
  - the in-memory `active_users` mirror and its `add_user` / `remove_user` handlers;
  - the engine config generator;
  - the engine process supervisor: start, stop, restart, `/health` and the master's health checker;
  - the `Upgrade: websocket` gate and the tunnel forwarding loops.

Everything is a pure function over immutable data:
- tables are sequences of rows;
- the mirror is an insertion-ordered sequence of `(uuid, path)` entries, with a `map` view;
- the engine process is an abstract handle;
- a WebSocket stream is a sequence of frames.

Randomness (`uuid4`, `token_hex`, the placeholder client id) and operating-system outcomes (spawn success, termination wait) are parameters.

| file | module | contents |
|---|---|---|
| `wrappers.dfy` | `Wrappers` | `Option`, `Result` |
| `text.dfy` | `Text` | bytes, Python `str.replace(pat, "")`, `str.lower()`, decimal and upper-case hex rendering |
| `utf8.dfy` | `Utf8` | UTF-8 encoding (`str.encode()`) and a decoder, with the round trip |
| `base64.dfy` | `Base64` | the Base64 alphabet of section 4 of RFC 4648 with `=` padding, a strict decoder, both round trips |
| `store.dfy` | `Store` | the `users` and `keys` tables and the `main.py` database operations |
| `xray_config.dfy` | `XrayConfig` | the engine config datatype and both generators |
| `subscription.dfy` | `Subscription` | link host, VLESS link, its parser, the subscription body and the `/sub` handler |
| `single_node.dfy` | `SingleNode` | activation together with the config file and the running engine of `main.py` |
| `mirror.dfy` | `Mirror` | the fleet nodes' `active_users` dict |
| `supervisor.dfy` | `Supervisor` | the engine process handle state machine |
| `registrar.dfy` | `Registrar` | the fleet nodes' `/api/add_user`, `/api/remove_user` and `/health` handlers |
| `relay.dfy` | `Relay` | frame forwarding loops and the upgrade gate |

Behaviours of the code that the model keeps as they are:
- `/sub/{path}` answers 404 for an inactive user exactly as for an unknown path (`main.py:207-208`);
- removing an unknown uuid restarts nothing (`master/main.py:160-169`);
- the health checker never restarts a missing handle, so an engine whose spawn failed stays down (`master/main.py:249`).

## Model

| member | source | states |
|---|---|---|
| Store.UserPath | main.py:89 | a subscription path is `u` followed by the decimal user id, so it is never empty and starts with `u` |
| Store.UserPathInjective | main.py:89 | distinct user ids get distinct paths, so the UNIQUE constraint on `path` follows from the one on `user_id` |
| Store.FindKeyUnique | main.py:53 | with unique key strings, the lookup of a key finds exactly its row |
| Store.NextKeyId | main.py:50-56 | a freshly inserted key gets an id larger than every existing id (rowid order) |
| Store.CreateKey | main.py:61-66 | the minted key is `NEFRIT-` plus 16 upper-case hex digits that decode back to the 8 random bytes; the insert succeeds exactly when no existing key has that text (UNIQUE), and then appends one unused row whose id exceeds every existing id and changes nothing else; a conflict changes nothing |
| Store.CreateKeyPreservesValid | main.py:51-66 | minting a key keeps the key texts unique and the key ids increasing, and leaves the users table valid |
| Store.Activate | main.py:73-104 | every error leaves both tables unchanged; "not found" is returned exactly when no key row matches; a success names a path that belongs to a row of the caller; the tables change only when the key was found unused, and then the only new user row is `(user_id, username, uuid, u<user_id>, active)` |
| Store.ActivateUsedKey | main.py:75-81 | a key that is already used yields the "already used" error and changes nothing |
| Store.ActivateExistingUser | main.py:83-86 | a caller who already has a row gets that row's path back; the key stays unused and no row is added |
| Store.ActivateNewUser | main.py:88-99 | for a new caller, activation succeeds exactly when the uuid is unused; then it appends one active row with path `u<user_id>`, marks exactly that key used by the caller, and leaves every other key as it was |
| Store.MarkUsed | main.py:95-98 | the UPDATE keeps every row's id and key text, leaves rows with another key unchanged, and sets the matching row used by the caller |
| Store.AppendUserKeepsUnique | main.py:40-47 | appending a row that clashes with no existing `user_id`, `user_uuid` or `path` keeps all three columns unique |
| Store.MarkUsedKeepsKeys | main.py:51-56 | marking a key used keeps key ids increasing and key texts unique |
| Store.ActivatePreservesValid | main.py:38-58 | activation preserves the schema's invariants: unique user ids, uuids and paths, unique keys, increasing key ids, each path equal to `u<user_id>` |
| Store.KeyRedeemedOnce | main.py:75-81 | once a key has activated a subscription, any later activation with it fails with "already used" and changes nothing |
| Store.ActiveUsers | main.py:68-71 | the query returns `(uuid, path)` of exactly the active rows and nothing when no row is active |
| Store.ActiveUsersCount | main.py:68-71 | the query yields as many results as there are active rows, counted independently, so no active row is dropped or repeated |
| Store.ActiveUsersAppend | main.py:68-71 | the query keeps the table's row order: the result for two tables laid end to end is the first table's result followed by the second's |
| Store.NewestFirst | main.py:121-126 | `ORDER BY id DESC LIMIT n` returns `min(n, count)` rows, newest first |
| Store.NewestFirstOrder | main.py:121-126 | the listed ids strictly decrease, and every key left out is older than every key listed |
| Store.KeysList | main.py:121-126 | the key list has at most 15 entries: key text and used flag of the newest keys, newest first |
| Store.Stats | main.py:113-119 | the statistics are the number of users and a free-key count no larger than the number of keys |
| Store.FreeKeysAppend | main.py:116-117 | adding a key row raises the free count by one exactly when it is unused |
| Store.FreeKeysMarkUsed | main.py:96-97 | using a free key lowers the free count by exactly one |
| Store.StatsAfterCreateKey | main.py:61-66 | minting a key adds one free key and no user |
| Store.StatsAfterActivate | main.py:73-104 | a successful first activation adds one user and uses one free key; any other outcome changes neither count |
| XrayConfig.MainConfig | main.py:129-167 | one client `{id, flow: ""}` per active row, in query order, or exactly one placeholder client when there is none; port 10000, WebSocket path `/vless`, VLESS with no decryption, freedom outbound |
| XrayConfig.NodeConfig | master/main.py:24-47 | one client `{id, level: 0}` per mirror key in insertion order, or exactly the placeholder client when the mirror is empty; 127.0.0.1:10001, path `/tunnel`, DNS 8.8.8.8 and 1.1.1.1 |
| XrayConfig.NodeConfigMatchesMirror | worker/main.py:23-47 | for a non-empty mirror, the configured client ids are exactly the mirror's keys, each listed once |
| SingleNode.RegenerateAdmitsActiveUsers | main.py:101-102 | the regenerated config admits exactly the uuids of active users, or only the placeholder when no user is active |
| SingleNode.Regenerate | main.py:129-142 | the regenerated config is a well-formed VLESS config on port 10000 whose every client is an active user or the placeholder |
| SingleNode.Boot | main.py:408-413 | the service comes up exactly when the engine process can be spawned, and then the file holds the config regenerated from the tables and the engine runs exactly that config; an unspawnable engine ends `main()` with no service |
| SingleNode.ActivateAsWritten | main.py:73-104 | activation as written updates the tables and rewrites the config file but never touches the running engine |
| SingleNode.NewSubscriberLockedOut | main.py:408-413 | a concrete run: after a successful first activation the running engine still does not admit the new subscriber's uuid |
| SingleNode.Activate | main.py:101-102 | corrected activation: same tables and result as the store, and after any change the engine runs a config regenerated from the new tables |
| SingleNode.ActivatedSubscriberAdmitted | main.py:88-104 | with the corrected activation, engine and database stay in sync, and a subscriber whose activation changed the tables is admitted by the running engine |
| Subscription.LinkHost | main.py:179 | removing the schemes never lengthens the base URL |
| Subscription.HostOfSchemeUrl | main.py:179 | for a host without `:`, both `https://host` and `http://host` reduce to `host` |
| Subscription.DefaultLinkHost | main.py:25 | the default base URL yields the host `nefritvpn.onrender.com` |
| Subscription.ParseLinkOfLink | main.py:180 | the link `vless://uuid@host:443?...&host=host#NefritVPN-path` reads back as `(uuid, host, path)` exactly when the uuid has no `@` and the path no `#` |
| Subscription.ParsedParts | main.py:180 | every string that reads as a link is the link built from the parts read, with no `@` in the uuid and no `#` in the path |
| Subscription.VlessLinkReadsBack | main.py:177-180 | a generated link carries the uuid, the link host twice and the path, and they can be read back from it |
| Subscription.SubscriptionBody | main.py:182-185 | the subscription body is valid Base64 (section 4 of RFC 4648) that decodes to the UTF-8 bytes of the VLESS link |
| Subscription.HandleSubscription | main.py:198-215 | every non-404 answer is 200 `text/plain` with `Profile-Update-Interval: 12`, and its body is the subscription of an active user with that path |
| Subscription.SubscriptionServesActiveUsers | main.py:198-215 | `/sub/{path}` answers 200 exactly when an active user has that path, and then serves that user's link; an unknown path or an inactive user gets 404 "Not found" |
| Base64.DecodeEncode | main.py:185 | decoding the Base64 encoding of any byte string gives it back |
| Base64.EncodeDecode | main.py:185 | every string the strict decoder accepts is the encoding of what it decodes to (the encoding is canonical) |
| Base64.Encode | main.py:185 | the encoding has length `4 * ceil(n / 3)` |
| Utf8.DecodeEncode | main.py:185 | decoding the UTF-8 encoding of any string gives it back |
| Utf8.EncodeAscii | main.py:185 | an ASCII string is encoded as its own code points, one byte each |
| Utf8.Encode | main.py:185 | `link.encode()` takes between one and four bytes per character |
| Text.RemoveAllAbsent | main.py:179 | `str.replace(pat, "")` leaves a string with no occurrence of `pat` unchanged |
| Text.RemoveAllLeading | main.py:179 | a leading occurrence of `pat` is removed |
| Text.RemoveAll | main.py:179 | `str.replace(pat, "")` never lengthens a string and leaves a string shorter than the pattern alone |
| Text.HexRoundTrip | main.py:62 | `token_hex(...).upper()` is decodable back to the random bytes |
| Text.IntToStringInjective | main.py:89 | the decimal rendering of integers is injective |
| Text.LowerCharPreimage | master/main.py:174 | a character lowercases to an ASCII letter exactly when it is that letter, its upper case, or (for `k`) KELVIN SIGN |
| Text.Lower | master/main.py:174 | the model's lower case maps each character on its own, ASCII capitals and KELVIN SIGN to small letters and everything else to itself: no ASCII capital is left, text without capitals or KELVIN SIGN comes back unchanged, and the length is kept (which Python does not promise, see Left out) |
| Mirror.Upsert | master/main.py:131-135 | after `active_users[uuid] = path` the uuid maps to the path, every other uuid keeps its entry, and the size grows by one exactly when the uuid was new |
| Mirror.Delete | master/main.py:160-161 | after `del active_users[uuid]` the uuid is absent, every other uuid keeps its entry, and the size shrinks by one exactly when the uuid was present |
| Mirror.UpsertIsMapUpdate | worker/main.py:110-113 | as a map, the upsert is `m[uuid := path]` |
| Mirror.DeleteIsMapRemoval | worker/main.py:134-136 | as a map, the delete is `m - {uuid}` |
| Mirror.SizeIsKeyCount | master/main.py:141 | `len(active_users)` is the number of distinct uuids |
| Mirror.UpsertIdempotent | master/main.py:131-135 | repeating the same upsert changes nothing |
| Mirror.DeleteIdempotent | master/main.py:160-161 | repeating a delete changes nothing |
| Registrar.MasterAddUser | master/main.py:115-142 | invalid JSON gives 400, a non-object body 500, a wrong secret 401, a missing or empty uuid or path 400 ("Missing uuid or path"), each with the node unchanged; 200 exactly for an authorised request naming both, and then the mirror is the upsert, the engine has been restarted on it, and `total_users` is the new size |
| Registrar.MasterRemoveUser | master/main.py:145-169 | invalid JSON 400, non-object 500, wrong secret 401, missing uuid 400, unknown uuid 404, each with the node unchanged and no restart; 200 exactly when the uuid is present, and then only it is removed, the engine restarted, and the new size reported |
| Registrar.WorkerAddUser | worker/main.py:98-123 | unparsable or non-object JSON gives 500, a wrong secret 401, a missing or empty uuid or path 400, each with the node unchanged; otherwise 200 with the upsert, a restart and the new size |
| Registrar.WorkerRemoveUser | worker/main.py:126-148 | a wrong secret gives 401; a missing or unknown uuid 404 with the node unchanged; 200 exactly when the uuid is present, and then only it is removed, with a restart and the new size |
| Registrar.HealthReport | master/main.py:104-112 | `/health` reports the mirror size and `xray` true exactly when a handle exists and its process is running |
| Registrar.RejectionsChangeNothing | master/main.py:117-129 | on bodies with string-valued fields, no rejected request of either variant changes the mirror or the engine |
| Registrar.HandlersKeepMirrorValid | worker/main.py:98-148 | every handler keeps the mirror's uuids distinct |
| Registrar.AddUserEffect | master/main.py:131-142 | an authorised add succeeds on both variants with the map updated by `uuid := path` and `total_users` equal to its size |
| Registrar.RemoveUserEffect | master/main.py:160-167 | an authorised remove of a present uuid succeeds on both variants with the map minus that uuid and `total_users` its size |
| Registrar.AddUserIdempotent | worker/main.py:110-123 | repeating the same add gives the same mirror and the same answer |
| Registrar.RemoveUserIdempotent | master/main.py:160-169 | after a successful remove, repeating it answers 404 and changes nothing |
| Registrar.VariantsAgreeOnWellFormedRequests | worker/main.py:98-148 | on a JSON object naming a non-empty uuid, master and worker give the same status and the same mirror |
| Registrar.VariantsDiffer | master/main.py:117-158 | the variants differ on unparsable JSON (master 400, worker 500) and on a remove without uuid (master 400, worker 404) |
| Supervisor.Start | worker/main.py:50-65 | the config is generated first only if the file is missing; the result is the spawn outcome; a successful spawn gives a running process reading the file; a failed spawn leaves the handle as it was |
| Supervisor.MasterStop | master/main.py:69-83 | stopping always leaves no handle and the config file untouched; it reports nothing to stop exactly when there was no handle, and a timed-out wait ends in a kill |
| Supervisor.WorkerStop | worker/main.py:68-73 | stopping always leaves no handle; without a handle it changes nothing |
| Supervisor.WriteConfig | worker/main.py:23-47 | writing the config leaves the process alone and makes the file list exactly the mirror's uuids in insertion order, or the placeholder for an empty mirror |
| Supervisor.MasterRestart | master/main.py:86-93 | after a restart the file holds the config of the mirror at that moment, and the handle is a process reading it if the spawn succeeded and none otherwise |
| Supervisor.WorkerRestart | worker/main.py:76-79 | the same for the worker's restart, which has no lock |
| Supervisor.HealthCheck | master/main.py:244-253 | a pass restarts exactly when a handle exists and its process has exited, and otherwise changes nothing |
| Supervisor.FailedSpawnIsNeverRetried | master/main.py:249-251 | after a restart whose spawn fails, no number of health-check passes ever restarts the engine |
| Supervisor.CrashIsRecovered | master/main.py:249-251 | a crashed engine comes back at the next pass whose spawn succeeds, running the current mirror's config |
| Supervisor.Boot | master/main.py:256-262 | a node boots with the config of the empty mirror, and the engine is alive exactly when the spawn succeeded |
| Relay.Forward | master/main.py:188-197 | a loop forwards only BINARY and TEXT frames and never more frames than it receives; iteration ends at CLOSE, CLOSING or CLOSED, and a fleet loop also at ERROR |
| Relay.ForwardIsDataBeforeStop | main.py:227-243 | what a loop forwards is exactly the data frames before the first terminating frame, in order, with types and payloads unchanged |
| Relay.ForwardDeliversDataUntilClose | worker/main.py:163-171 | data frames followed by CLOSE reach the peer unchanged, whatever follows the CLOSE |
| Relay.ForwardAppend | master/main.py:191-197 | forwarding is incremental over a prefix without a terminating frame |
| Relay.VariantsAgreeWithoutErrors | main.py:227-243 | on streams without ERROR frames the single-node and fleet loops forward the same frames |
| Relay.ErrorFrameDistinguishesVariants | master/main.py:196 | the loop bodies differ on ERROR: it ends a fleet loop but is skipped by the single-node loop (a difference in the loop body only; no socket delivers anything but CLOSED after ERROR) |
| Relay.VariantsAgreeOnSocketStreams | main.py:227-243 | on every stream in which only CLOSED follows an ERROR, the single-node and fleet loops forward the same frames |
| Relay.UpgradeAcceptedSpellings | master/main.py:174 | the gate accepts exactly the nine-letter case variants of `websocket` (with KELVIN SIGN for `k`) and rejects a missing header |
| Relay.UpgradeAccepted | worker/main.py:152 | the gate passes only for a present nine-character header, and always for `websocket` itself |
| Relay.FleetTunnel | worker/main.py:151-161 | a request is rejected with 400 and the variant's text exactly when the gate fails; past the gate, an invalid handshake fails in `prepare()`; relayed exactly when gate and handshake pass and the engine is reachable |
| Relay.SingleNodeTunnel | main.py:219-245 | no gate: a request fails exactly when its handshake is invalid, the engine being unreachable after the handshake is an error, and it is relayed exactly when both succeed |
| Relay.TunnelFidelity | master/main.py:172-197 | on a tunnel of either kind that passed gate and handshake and reached the engine, each side receives exactly the data frames the other sent before closing |

## Left out

- Telegram bot handlers, keyboards and message texts (`main.py:250-393`): user interface only.
- `get_user_info`, and the `/` and `/health` routes of `main.py`: display-only queries with no decision logic.
- SQL execution, connections and commits: the tables are sequences of rows.
  - The row order is the rowid order; `NewestFirst` relies on new keys being appended at the end.
  - There is no transaction around check-then-update in `activate_key`. Two concurrent redemptions of one key are therefore outside the sequential model.
- Concurrency and timing: `asyncio.gather`, the master's `restart_lock`, and the sleeps in `restart_xray` and `main`. Only the sequential order inside a restart is modelled.
- Process control:
  - `Popen`, `terminate`, `wait` and `kill` become an abstract handle, a spawn-success flag and a wait outcome;
  - a spawn failure in the master's `main` is not distinguished from one in a restart.
  - in the single-node `main()` (main.py:170-175, 413) the spawn is unguarded, so a failure ends the program before the web server and the bot start; `SingleNode.Boot` gives no service then, and the exception itself is not modelled.
- Supervisor.WorkerStop: always ends with no handle. The worker's `wait()` has no timeout (`worker/main.py:71-72`), and its `restart_xray` runs synchronously inside the request handler. An engine that ignores SIGTERM would therefore block the handler and the whole event loop forever. The model does not represent that hang.
- Randomness is a parameter:
  - the `uuid4` of a new user;
  - the `token_hex(8)` bytes of a key;
  - the placeholder client id.

  The format of a `uuid4` string is not modelled.
- `added_at` timestamps (`datetime.now()`) of mirror entries: never read by any handler.
- JSON:
  - serialisation of the config file and of the responses: the config is a datatype and a response a record;
  - a JSON body is either unparsable, not an object, or an object whose `secret`, `uuid` and `path` are strings or absent. A non-string `secret` never equals the shared secret, so it is refused with 401 like an absent one. Non-string `uuid` and `path` values (numbers, lists, objects) are not modelled. With them the handlers do the following:
    - the master's add (master/main.py:124-141) stores a truthy non-string value, restarts the engine and answers 200; an unhashable uuid, a list say, raises at 131 and gives 500 with nothing changed;
    - the worker's add (worker/main.py:110-115) stores the entry at 110 and then raises TypeError on the string concatenation at 115, so it answers 500 with the mirror changed and the engine not restarted;
    - the worker's remove (worker/main.py:134-138) of a stored entry whose uuid is not a string deletes it at 136 and raises at 138, with the same result.
- WebSocket I/O:
  - frames are delivered as one finite sequence per direction;
  - an exception inside a forwarding loop ends it like a terminating frame would;
  - the engine-unreachable outcome of a fleet tunnel has no frames.
- Features these files do not contain (expiry, renewal, key revocation, `/api/sync`, the master's fan-out to workers): not invented.
- Text.RemoveAll: its ensures state only length facts. Its exact effect on the link host is proved in `Text.RemoveAllAbsent`, `Text.RemoveAllLeading` and `Subscription.HostOfSchemeUrl`.
- Relay.SingleNodeTunnel: the outcome of a failed handshake or an unreachable engine is an abstract result; aiohttp's response text and the dropped connection are not modelled.
- Registrar.RejectionsChangeNothing: holds for bodies whose `uuid` and `path` are strings or absent. With a non-string value the worker answers 500 after changing its mirror (see JSON above).
- Registrar.WorkerAddUser: covers bodies whose `uuid` and `path` are strings or absent. A non-string value gives 500 with the mirror already changed and no restart, a case the model does not represent.
- Registrar.MasterAddUser: covers bodies whose `uuid` and `path` are strings or absent. A truthy non-string value is stored and answered with 200, a case the model does not represent.
- Text.Lower: keeps the length, which Python's `str.lower()` does not for every character: U+0130 (LATIN CAPITAL LETTER I WITH DOT ABOVE) lowercases to the two characters `i` and U+0307. The gate's verdict does not change, because such a result still holds a non-ASCII character and so never equals `"websocket"`.
- Text.LowerChar: models Python `str.lower()` only on ASCII and on KELVIN SIGN, the only non-ASCII character whose lowercase is an ASCII letter. Every other character is left as is, which is enough for comparing with `"websocket"`.
- Subscription.LinkHost: `str.replace` is modelled as one left-to-right pass per pattern (Python's semantics). Its ensures is weaker than the source's promise (only a length bound). The host is characterised by `Subscription.HostOfSchemeUrl` for URLs of the form `scheme://host` with no further `:`.
- Subscription.VlessLink: has no ensures of its own. Its contents are stated by `Subscription.VlessLinkReadsBack` through `Subscription.ParseLink`, a reader defined in the model as the link's partner. The source has no link parser.
- Subscription.SubscriptionBody: does not state that the body length is a multiple of four. That follows from `Base64.Encode` but is not repeated.
- Store.Stats: states only a bound on the free-key count in its ensures. Its exact changes are in `Store.StatsAfterCreateKey` and `Store.StatsAfterActivate`.
- Integer widths: user and key ids are unbounded integers. SQLite's 64-bit limits are not reached by any modelled operation.

## Findings

| source | as written | input that shows it | evidently intended | confidence | as-written member | corrected member |
|---|---|---|---|---|---|---|
| main.py:101-102, main.py:408-413 | `activate_key` rewrites the engine's config file, but the engine started once by `main()` never rereads it and is never restarted | an empty users table with one unused key `NEFRIT-0000000000000000`; boot with placeholder id `placeholder`; user 7 activates it with uuid `uuid-7`. The reply is path `u7`, but the running engine admits only `placeholder` | a new subscriber can connect right after activation: the engine runs the regenerated config, as the fleet nodes ensure by restarting after every change | not executed | SingleNode.ActivateAsWritten, SingleNode.NewSubscriberLockedOut | SingleNode.Activate, SingleNode.ActivatedSubscriberAdmitted |

=== FILE: base64.dfy ===
/**
 * Base64 as defined in section 4 of RFC 4648: the 64-character alphabet
 * `A-Z a-z 0-9 + /`, three input bytes per four output characters, and `=`
 * padding of the final group. This is what Python's `base64.b64encode`
 * produces.
 */
module Base64 {
  import opened Wrappers
  import opened Text

  /** A six-bit group, the index of one alphabet character. */
  type Sextet = x: int | 0 <= x < 64

  const Pad: char := '='

  /** Table 1 of the RFC, by ranges. */
  function CharOf(i: Sextet): (c: char)
    ensures c != Pad
  {
    if i < 26 then ('A' as int + i) as char
    else if i < 52 then ('a' as int + i - 26) as char
    else if i < 62 then ('0' as int + i - 52) as char
    else if i == 62 then '+'
    else '/'
  }

  /** The inverse of `CharOf`: `None` for characters outside the alphabet (including `=`). */
  function IndexOf(c: char): Option<Sextet> {
    if 'A' <= c <= 'Z' then Some(c as int - 'A' as int)
    else if 'a' <= c <= 'z' then Some(c as int - 'a' as int + 26)
    else if '0' <= c <= '9' then Some(c as int - '0' as int + 52)
    else if c == '+' then Some(62)
    else if c == '/' then Some(63)
    else None
  }

  lemma IndexOfCharOf(i: Sextet)
    ensures IndexOf(CharOf(i)) == Some(i)
  {
  }

  lemma CharOfIndexOf(c: char)
    requires IndexOf(c).Some?
    ensures CharOf(IndexOf(c).value) == c
  {
  }

  // The bit layout of one group: bytes b0 b1 b2 (8 bits each) regrouped
  // as sextets x0 x1 x2 x3 (6 bits each), most significant bits first.

  function X0(b0: Byte): Sextet { b0 / 4 }
  function X1(b0: Byte, b1: Byte): Sextet { (b0 % 4) * 16 + b1 / 16 }
  function X2(b1: Byte, b2: Byte): Sextet { (b1 % 16) * 4 + b2 / 64 }
  function X3(b2: Byte): Sextet { b2 % 64 }

  function B0(x0: Sextet, x1: Sextet): Byte { x0 as int * 4 + x1 as int / 16 }
  function B1(x1: Sextet, x2: Sextet): Byte { (x1 as int % 16) * 16 + x2 as int / 4 }
  function B2(x2: Sextet, x3: Sextet): Byte { (x2 as int % 4) * 64 + x3 as int }

  /** Regrouping bytes into sextets and back is the identity. */
  lemma BytesSextetsBytes(b0: Byte, b1: Byte, b2: Byte)
    ensures B0(X0(b0), X1(b0, b1)) == b0
    ensures B1(X1(b0, b1), X2(b1, b2)) == b1
    ensures B2(X2(b1, b2), X3(b2)) == b2
  {
  }

  /** Regrouping sextets into bytes and back is the identity. */
  lemma SextetsBytesSextets(x0: Sextet, x1: Sextet, x2: Sextet, x3: Sextet)
    ensures X0(B0(x0, x1)) == x0
    ensures X1(B0(x0, x1), B1(x1, x2)) == x1
    ensures X2(B1(x1, x2), B2(x2, x3)) == x2
    ensures X3(B2(x2, x3)) == x3
  {
  }

  /** Three bytes as four characters. */
  function EncodeGroup(b0: Byte, b1: Byte, b2: Byte): string {
    [CharOf(X0(b0)), CharOf(X1(b0, b1)), CharOf(X2(b1, b2)), CharOf(X3(b2))]
  }

  /** A final group of two bytes: three characters and one pad (the missing third byte counts as zero). */
  function EncodeTail2(b0: Byte, b1: Byte): string {
    [CharOf(X0(b0)), CharOf(X1(b0, b1)), CharOf(X2(b1, 0)), Pad]
  }

  /** A final group of one byte: two characters and two pads. */
  function EncodeTail1(b0: Byte): string {
    [CharOf(X0(b0)), CharOf(X1(b0, 0)), Pad, Pad]
  }

  /** `base64.b64encode(b)`, read as text. */
  function Encode(b: seq<Byte>): (r: string)
    ensures |r| == 4 * ((|b| + 2) / 3)
    decreases |b|
  {
    if |b| == 0 then ""
    else if |b| == 1 then EncodeTail1(b[0])
    else if |b| == 2 then EncodeTail2(b[0], b[1])
    else EncodeGroup(b[0], b[1], b[2]) + Encode(b[3..])
  }

  /** All four characters belong to the alphabet. */
  predicate InAlphabet4(c0: char, c1: char, c2: char, c3: char) {
    IndexOf(c0).Some? && IndexOf(c1).Some? && IndexOf(c2).Some? && IndexOf(c3).Some?
  }

  /** Four alphabet characters as three bytes. */
  function DecodeGroup(c0: char, c1: char, c2: char, c3: char): Option<seq<Byte>> {
    if !InAlphabet4(c0, c1, c2, c3) then None
    else
      var x0, x1, x2, x3 := IndexOf(c0).value, IndexOf(c1).value, IndexOf(c2).value, IndexOf(c3).value;
      Some([B0(x0, x1), B1(x1, x2), B2(x2, x3)])
  }

  /**
   * The last group of the input: a full group, or a padded one whose
   * unused low bits are zero (the canonical form, so that decoding is
   * exactly the inverse of encoding).
   */
  function DecodeFinal(c0: char, c1: char, c2: char, c3: char): Option<seq<Byte>> {
    if c3 != Pad then DecodeGroup(c0, c1, c2, c3)
    else if IndexOf(c0).None? || IndexOf(c1).None? then None
    else
      var x0, x1 := IndexOf(c0).value, IndexOf(c1).value;
      if c2 == Pad then
        if B1(x1, 0) == 0 then Some([B0(x0, x1)]) else None
      else if IndexOf(c2).None? then None
      else
        var x2 := IndexOf(c2).value;
        if B2(x2, 0) == 0 then Some([B0(x0, x1), B1(x1, x2)]) else None
  }

  /** Strict decoding: `None` for a length that is not a multiple of four, a foreign character, misplaced padding or non-zero pad bits. */
  function Decode(s: string): Option<seq<Byte>>
    decreases |s|
  {
    if |s| == 0 then Some([])
    else if |s| < 4 then None
    else if |s| == 4 then DecodeFinal(s[0], s[1], s[2], s[3])
    else
      match DecodeGroup(s[0], s[1], s[2], s[3])
      case None => None
      case Some(g) =>
        match Decode(s[4..])
        case None => None
        case Some(rest) => Some(g + rest)
  }

  lemma GroupRoundTrip(b0: Byte, b1: Byte, b2: Byte)
    ensures var s := EncodeGroup(b0, b1, b2);
            DecodeGroup(s[0], s[1], s[2], s[3]) == Some([b0, b1, b2])
  {
    IndexOfCharOf(X0(b0));
    IndexOfCharOf(X1(b0, b1));
    IndexOfCharOf(X2(b1, b2));
    IndexOfCharOf(X3(b2));
    BytesSextetsBytes(b0, b1, b2);
  }

  /** The bits a padded final group leaves unused are zero. */
  lemma PadBitsZero(b0: Byte, b1: Byte)
    ensures B1(X1(b0, 0), 0) == 0
    ensures B2(X2(b1, 0), 0) == 0
  {
  }

  lemma Tail1RoundTrip(b0: Byte)
    ensures var s := EncodeTail1(b0);
            DecodeFinal(s[0], s[1], s[2], s[3]) == Some([b0])
  {
    IndexOfCharOf(X0(b0));
    IndexOfCharOf(X1(b0, 0));
  }

  lemma Tail2RoundTrip(b0: Byte, b1: Byte)
    ensures var s := EncodeTail2(b0, b1);
            DecodeFinal(s[0], s[1], s[2], s[3]) == Some([b0, b1])
  {
    var x0, x1, x2 := X0(b0), X1(b0, b1), X2(b1, 0);
    IndexOfCharOf(x0);
    IndexOfCharOf(x1);
    IndexOfCharOf(x2);
    BytesSextetsBytes(b0, b1, 0);
    PadBitsZero(b0, b1);
    assert B0(x0, x1) == b0;
    assert B1(x1, x2) == b1;
    assert B2(x2, 0) == 0;
  }

  lemma DecodeEncodeOne(b: seq<Byte>)
    requires |b| == 1
    ensures Decode(Encode(b)) == Some(b)
  {
    Tail1RoundTrip(b[0]);
    var s := Encode(b);
    assert s == EncodeTail1(b[0]);
    assert Decode(s) == DecodeFinal(s[0], s[1], s[2], s[3]);
    assert [b[0]] == b;
  }

  lemma DecodeEncodeTwo(b: seq<Byte>)
    requires |b| == 2
    ensures Decode(Encode(b)) == Some(b)
  {
    Tail2RoundTrip(b[0], b[1]);
    var s := Encode(b);
    assert s == EncodeTail2(b[0], b[1]);
    assert Decode(s) == DecodeFinal(s[0], s[1], s[2], s[3]);
    assert [b[0], b[1]] == b;
  }

  lemma DecodeEncodeThree(b: seq<Byte>)
    requires |b| == 3
    ensures Decode(Encode(b)) == Some(b)
  {
    GroupRoundTrip(b[0], b[1], b[2]);
    var s := Encode(b);
    assert s == EncodeGroup(b[0], b[1], b[2]) + Encode(b[3..]);
    assert Encode(b[3..]) == "";
    assert s[3] != Pad;
    assert Decode(s) == DecodeGroup(s[0], s[1], s[2], s[3]);
    assert [b[0], b[1], b[2]] == b;
  }

  lemma SplitThree<T>(b: seq<T>)
    requires |b| >= 3
    ensures [b[0], b[1], b[2]] + b[3..] == b
  {
  }

  /** A decodable group followed by more decodable text decodes to the group's bytes followed by the rest. */
  lemma DecodeGroupThen(g: string, t: string, x: seq<Byte>, y: seq<Byte>)
    requires |g| == 4 && |t| > 0
    requires DecodeGroup(g[0], g[1], g[2], g[3]) == Some(x)
    requires Decode(t) == Some(y)
    ensures Decode(g + t) == Some(x + y)
  {
    var s := g + t;
    assert s[0] == g[0] && s[1] == g[1] && s[2] == g[2] && s[3] == g[3];
    assert s[4..] == t;
  }

  lemma DecodeEncodeStep(b: seq<Byte>)
    requires |b| > 3
    requires Decode(Encode(b[3..])) == Some(b[3..])
    ensures Decode(Encode(b)) == Some(b)
  {
    var g := EncodeGroup(b[0], b[1], b[2]);
    var t := Encode(b[3..]);
    GroupRoundTrip(b[0], b[1], b[2]);
    assert |t| > 0 by {
      assert (|b[3..]| + 2) / 3 >= 1;
    }
    DecodeGroupThen(g, t, [b[0], b[1], b[2]], b[3..]);
    SplitThree(b);
  }

  /** Encoding then decoding gives back the bytes. */
  lemma {:induction false} DecodeEncode(b: seq<Byte>)
    ensures Decode(Encode(b)) == Some(b)
    decreases |b|
  {
    if |b| == 1 {
      DecodeEncodeOne(b);
    } else if |b| == 2 {
      DecodeEncodeTwo(b);
    } else if |b| == 3 {
      DecodeEncodeThree(b);
    } else if |b| > 3 {
      DecodeEncode(b[3..]);
      DecodeEncodeStep(b);
    }
  }

  lemma GroupInverse(c0: char, c1: char, c2: char, c3: char)
    requires DecodeGroup(c0, c1, c2, c3).Some?
    ensures |DecodeGroup(c0, c1, c2, c3).value| == 3
    ensures var g := DecodeGroup(c0, c1, c2, c3).value;
            EncodeGroup(g[0], g[1], g[2]) == [c0, c1, c2, c3]
  {
    var x0, x1, x2, x3 := IndexOf(c0).value, IndexOf(c1).value, IndexOf(c2).value, IndexOf(c3).value;
    CharOfIndexOf(c0);
    CharOfIndexOf(c1);
    CharOfIndexOf(c2);
    CharOfIndexOf(c3);
    SextetsBytesSextets(x0, x1, x2, x3);
  }

  lemma FinalInverse(c0: char, c1: char, c2: char, c3: char)
    requires DecodeFinal(c0, c1, c2, c3).Some?
    ensures Encode(DecodeFinal(c0, c1, c2, c3).value) == [c0, c1, c2, c3]
  {
    if c3 != Pad {
      GroupInverse(c0, c1, c2, c3);
      var g := DecodeGroup(c0, c1, c2, c3).value;
      assert Encode(g) == EncodeGroup(g[0], g[1], g[2]) + Encode(g[3..]);
    } else if c2 != Pad {
      var x0, x1, x2 := IndexOf(c0).value, IndexOf(c1).value, IndexOf(c2).value;
      CharOfIndexOf(c0);
      CharOfIndexOf(c1);
      CharOfIndexOf(c2);
      SextetsBytesSextets(x0, x1, x2, 0);
    } else {
      var x0, x1 := IndexOf(c0).value, IndexOf(c1).value;
      CharOfIndexOf(c0);
      CharOfIndexOf(c1);
      SextetsBytesSextets(x0, x1, 0, 0);
    }
  }

  /** Decoding a longer text splits off its first group. */
  lemma DecodeSplits(s: string)
    requires |s| > 4 && Decode(s).Some?
    ensures DecodeGroup(s[0], s[1], s[2], s[3]).Some? && Decode(s[4..]).Some?
    ensures Decode(s).value == DecodeGroup(s[0], s[1], s[2], s[3]).value + Decode(s[4..]).value
  {
  }

  /** Three bytes and more encode as their group followed by the rest. */
  lemma EncodeGroupThen(g: seq<Byte>, rest: seq<Byte>)
    requires |g| == 3
    ensures Encode(g + rest) == EncodeGroup(g[0], g[1], g[2]) + Encode(rest)
  {
    var b := g + rest;
    assert b[0] == g[0] && b[1] == g[1] && b[2] == g[2];
    assert b[3..] == rest;
  }

  lemma EncodeDecodeStep(s: string)
    requires |s| > 4
    requires Decode(s).Some?
    requires Decode(s[4..]).Some? && Encode(Decode(s[4..]).value) == s[4..]
    ensures Encode(Decode(s).value) == s
  {
    DecodeSplits(s);
    GroupInverse(s[0], s[1], s[2], s[3]);
    var g := DecodeGroup(s[0], s[1], s[2], s[3]).value;
    var rest := Decode(s[4..]).value;
    EncodeGroupThen(g, rest);
    SplitFour(s);
  }

  lemma SplitFour<T>(s: seq<T>)
    requires |s| >= 4
    ensures s == [s[0], s[1], s[2], s[3]] + s[4..]
  {
  }

  /** Decoding succeeds only on canonical encodings: what it accepts re-encodes to the same text. */
  lemma {:induction false} EncodeDecode(s: string)
    requires Decode(s).Some?
    ensures Encode(Decode(s).value) == s
    decreases |s|
  {
    if |s| == 4 {
      FinalInverse(s[0], s[1], s[2], s[3]);
    } else if |s| > 4 {
      EncodeDecode(s[4..]);
      EncodeDecodeStep(s);
    }
  }
}

=== FILE: mirror.dfy ===
/**
 * A node's local mirror of the credential set: the `active_users` dict of
 * `master/main.py` and `worker/main.py`, keyed by client uuid and holding the
 * subscription path. A Python dict remembers insertion order, and the
 * generated client list follows it, so the mirror is an ordered sequence of
 * entries with distinct uuids; `AsMap` is its uuid -> path view.
 */
module Mirror {
  import opened Wrappers

  /** One mirrored credential (the `added_at` timestamp is not modelled). */
  datatype Entry = Entry(uuid: string, path: string)

  type Mirror = seq<Entry>

  /** Dict keys are unique. */
  ghost predicate Valid(m: Mirror) {
    forall i, j :: 0 <= i < j < |m| ==> m[i].uuid != m[j].uuid
  }

  /** Position of `u`, if present: the first entry with that uuid. */
  function Find(m: Mirror, u: string): (r: Option<nat>)
    ensures r.None? <==> forall i :: 0 <= i < |m| ==> m[i].uuid != u
    ensures r.Some? ==> r.value < |m| && m[r.value].uuid == u
    ensures r.Some? ==> forall i :: 0 <= i < r.value ==> m[i].uuid != u
  {
    if |m| == 0 then None
    else if m[0].uuid == u then Some(0)
    else
      match Find(m[1..], u)
      case None => None
      case Some(i) => Some(i + 1)
  }

  /** `u in active_users`. */
  predicate Contains(m: Mirror, u: string) {
    Find(m, u).Some?
  }

  /** `active_users[u]["path"]`, or `None` when `u` is not a key. */
  function Lookup(m: Mirror, u: string): Option<string> {
    match Find(m, u)
    case None => None
    case Some(i) => Some(m[i].path)
  }

  /** `list(active_users.keys())`. */
  function Uuids(m: Mirror): (r: seq<string>)
    ensures |r| == |m|
    ensures forall i :: 0 <= i < |m| ==> r[i] == m[i].uuid
  {
    seq(|m|, i requires 0 <= i < |m| => m[i].uuid)
  }

  /** The set of keys. */
  function UuidSet(m: Mirror): set<string> {
    set i | 0 <= i < |m| :: m[i].uuid
  }

  /** The uuid -> path view of the mirror. */
  function AsMap(m: Mirror): (r: map<string, string>)
    ensures r.Keys == UuidSet(m)
    ensures forall u :: u in r ==> Lookup(m, u) == Some(r[u])
  {
    map u | u in UuidSet(m) :: Lookup(m, u).value
  }

  /** `active_users[u] = {"path": p, ...}`: overwrite in place, or append a new key. */
  function Upsert(m: Mirror, u: string, p: string): (r: Mirror)
    ensures Lookup(r, u) == Some(p)
    ensures forall v :: v != u ==> Lookup(r, v) == Lookup(m, v)
    ensures Valid(m) ==> Valid(r)
    ensures |r| == if Contains(m, u) then |m| else |m| + 1
  {
    match Find(m, u)
    case None =>
      AppendLookups(m, u, p);
      m + [Entry(u, p)]
    case Some(i) =>
      OverwriteLookups(m, u, p, i);
      m[i := Entry(u, p)]
  }

  /** `Find` returns the first position holding `u`. */
  lemma FindAt(m: Mirror, u: string, j: nat)
    requires j < |m| && m[j].uuid == u
    requires forall k :: 0 <= k < j ==> m[k].uuid != u
    ensures Find(m, u) == Some(j)
  {
  }

  lemma AppendLookups(m: Mirror, u: string, p: string)
    requires !Contains(m, u)
    ensures var r := m + [Entry(u, p)];
            && Lookup(r, u) == Some(p)
            && (forall v :: v != u ==> Lookup(r, v) == Lookup(m, v))
            && (Valid(m) ==> Valid(r))
  {
    var r := m + [Entry(u, p)];
    FindAt(r, u, |m|);
    forall v | v != u
      ensures Lookup(r, v) == Lookup(m, v)
    {
      var f := Find(m, v);
      if f.Some? {
        FindAt(r, v, f.value);
      }
    }
  }

  lemma OverwriteLookups(m: Mirror, u: string, p: string, i: nat)
    requires Find(m, u) == Some(i)
    ensures var r := m[i := Entry(u, p)];
            && Lookup(r, u) == Some(p)
            && (forall v :: v != u ==> Lookup(r, v) == Lookup(m, v))
            && (Valid(m) ==> Valid(r))
  {
    var r := m[i := Entry(u, p)];
    FindAt(r, u, i);
    forall v | v != u
      ensures Lookup(r, v) == Lookup(m, v)
    {
      var f := Find(m, v);
      if f.Some? {
        FindAt(r, v, f.value);
      }
    }
  }

  /** `del active_users[u]` when present; the mirror is unchanged otherwise. */
  function Delete(m: Mirror, u: string): (r: Mirror)
    requires Valid(m)
    ensures Lookup(r, u) == None
    ensures forall v :: v != u ==> Lookup(r, v) == Lookup(m, v)
    ensures Valid(r)
    ensures |r| == if Contains(m, u) then |m| - 1 else |m|
  {
    match Find(m, u)
    case None => m
    case Some(i) =>
      RemoveAtLookups(m, u, i);
      m[..i] + m[i + 1..]
  }

  /** The entries left after cutting out position `i`. */
  lemma RemoveAtEntries(m: Mirror, i: nat)
    requires i < |m|
    ensures var r := m[..i] + m[i + 1..];
            |r| == |m| - 1 && forall k :: 0 <= k < |r| ==> r[k] == if k < i then m[k] else m[k + 1]
  {
  }

  /** Cutting out the entry of `u` leaves another key's lookup alone. */
  lemma RemoveAtLookup(m: Mirror, u: string, i: nat, v: string)
    requires Valid(m)
    requires Find(m, u) == Some(i)
    requires v != u
    ensures Lookup(m[..i] + m[i + 1..], v) == Lookup(m, v)
  {
    var r := m[..i] + m[i + 1..];
    RemoveAtEntries(m, i);
    var f := Find(m, v);
    if f.Some? {
      var j := f.value;
      var j' := if j < i then j else j - 1;
      assert r[j'] == m[j];
      assert forall k :: 0 <= k < j' ==> r[k].uuid != v by {
        forall k | 0 <= k < j'
          ensures r[k].uuid != v
        {
          assert r[k] == if k < i then m[k] else m[k + 1];
        }
      }
      FindAt(r, v, j');
    } else {
      assert forall k :: 0 <= k < |r| ==> r[k].uuid != v;
    }
  }

  /** Cutting out the entry of `u` removes `u`, keeps the keys distinct and leaves every other key's lookup alone. */
  lemma RemoveAtLookups(m: Mirror, u: string, i: nat)
    requires Valid(m)
    requires Find(m, u) == Some(i)
    ensures var r := m[..i] + m[i + 1..];
            && Valid(r)
            && Lookup(r, u) == None
            && forall v :: v != u ==> Lookup(r, v) == Lookup(m, v)
  {
    var r := m[..i] + m[i + 1..];
    RemoveAtEntries(m, i);
    assert forall k :: 0 <= k < |r| ==> r[k].uuid != u;
    forall v | v != u
      ensures Lookup(r, v) == Lookup(m, v)
    {
      RemoveAtLookup(m, u, i, v);
    }
  }

  /** A uuid is a key of the view exactly when the mirror finds it. */
  lemma KeysAreFound(m: Mirror, v: string)
    ensures v in AsMap(m) <==> Lookup(m, v).Some?
  {
    if v in UuidSet(m) {
      var i :| 0 <= i < |m| && m[i].uuid == v;
    }
    if Lookup(m, v).Some? {
      var i := Find(m, v).value;
      assert m[i].uuid == v;
    }
  }

  /** `add_user`'s write is a map update. */
  lemma UpsertIsMapUpdate(m: Mirror, u: string, p: string)
    ensures AsMap(Upsert(m, u, p)) == AsMap(m)[u := p]
  {
    var r := Upsert(m, u, p);
    var m' := AsMap(m)[u := p];
    forall v
      ensures v in AsMap(r) <==> v in m'
    {
      KeysAreFound(r, v);
      KeysAreFound(m, v);
    }
    forall v | v in AsMap(r)
      ensures AsMap(r)[v] == m'[v]
    {
      KeysAreFound(m, v);
    }
  }

  /** `remove_user`'s write is a map deletion. */
  lemma DeleteIsMapRemoval(m: Mirror, u: string)
    requires Valid(m)
    ensures AsMap(Delete(m, u)) == AsMap(m) - {u}
  {
    var r := Delete(m, u);
    var m' := AsMap(m) - {u};
    forall v
      ensures v in AsMap(r) <==> v in m'
    {
      KeysAreFound(r, v);
      KeysAreFound(m, v);
    }
    forall v | v in AsMap(r)
      ensures AsMap(r)[v] == m'[v]
    {
      KeysAreFound(m, v);
    }
  }

  lemma {:induction false} DistinctKeysCount(m: Mirror)
    requires Valid(m)
    ensures |UuidSet(m)| == |m|
    decreases |m|
  {
    if |m| > 0 {
      var tail := m[1..];
      DistinctKeysCount(tail);
      assert UuidSet(m) == {m[0].uuid} + UuidSet(tail) by {
        forall v | v in UuidSet(m)
          ensures v in {m[0].uuid} + UuidSet(tail)
        {
          var i :| 0 <= i < |m| && m[i].uuid == v;
          if i > 0 {
            assert tail[i - 1] == m[i];
          }
        }
        forall v | v in UuidSet(tail)
          ensures v in UuidSet(m)
        {
          var i :| 0 <= i < |tail| && tail[i].uuid == v;
          assert m[i + 1] == tail[i];
        }
      }
      assert m[0].uuid !in UuidSet(tail) by {
        forall i | 0 <= i < |tail|
          ensures tail[i].uuid != m[0].uuid
        {
          assert tail[i] == m[i + 1];
        }
      }
    }
  }

  /** `len(active_users)` is the number of distinct keys. */
  lemma SizeIsKeyCount(m: Mirror)
    requires Valid(m)
    ensures |AsMap(m)| == |m|
  {
    DistinctKeysCount(m);
    assert |AsMap(m)| == |AsMap(m).Keys|;
  }

  /** Re-adding the same uuid with the same path changes nothing. */
  lemma UpsertIdempotent(m: Mirror, u: string, p: string)
    ensures Upsert(Upsert(m, u, p), u, p) == Upsert(m, u, p)
  {
    var r := Upsert(m, u, p);
    var i := Find(r, u).value;
    assert r[i] == Entry(u, p);
    assert r[i := Entry(u, p)] == r;
  }

  /** Deleting twice is deleting once. */
  lemma DeleteIdempotent(m: Mirror, u: string)
    requires Valid(m)
    ensures Delete(Delete(m, u), u) == Delete(m, u)
  {
  }
}

=== FILE: registrar.dfy ===
/**
 * The fleet nodes' credential endpoints, `POST /api/add_user` and
 * `POST /api/remove_user`, in their two variants: `master/main.py` and
 * `worker/main.py`. Each handler is a pure transition from a request and
 * the node state (mirror + supervised engine) to a reply and the next
 * state. A restart after a change is the node's own `restart_xray`.
 */
module Registrar {
  import opened Wrappers
  import opened Mirror
  import opened XrayConfig
  import opened Supervisor

  /**
   * The request body as the handler sees it: not JSON at all, JSON that is
   * not an object (so `data.get` raises), or an object whose `secret`,
   * `uuid` and `path` members are read as strings (`None` when absent).
   */
  datatype Body =
    | Unparsable
    | NotAnObject
    | Fields(secret: Option<string>, uuid: Option<string>, path: Option<string>)

  /** JSON reply bodies; `ServerError` is aiohttp's answer to an exception the handler did not catch. */
  datatype ReplyBody =
    | ErrorBody(error: string)
    | SuccessBody(message: Option<string>, totalUsers: nat)
    | ServerError

  datatype Reply = Reply(status: nat, body: ReplyBody)

  /** A node's mutable state: the `active_users` mirror and the engine. */
  datatype Node = Node(mirror: Mirror, engine: Engine)

  /** What the outside world decides during a restart: the placeholder id and the OS outcomes. */
  datatype RestartEnv = RestartEnv(placeholder: string, wait: WaitOutcome, spawnOk: bool)

  /** Python truthiness of an optional string: absent, `null` and `""` are all false. */
  predicate Present(o: Option<string>) {
    o.Some? && o.value != ""
  }

  /** `data.get("secret") != SERVER_SECRET`. */
  predicate Authorized(b: Body, secret: string)
    requires b.Fields?
  {
    b.secret == Some(secret)
  }

  const InternalError: Reply := Reply(500, ServerError)

  // ---------------------------------------------------------------------
  // master/main.py
  // ---------------------------------------------------------------------

  /**
   * `handle_add_user` of the master variant: bad JSON 400, wrong secret 401,
   * missing or empty uuid/path 400; otherwise upsert, restart and report
   * the new size.
   */
  function MasterAddUser(n: Node, secret: string, b: Body, env: RestartEnv): (r: (Reply, Node))
    ensures b.Unparsable? ==> r == (Reply(400, ErrorBody("Invalid JSON")), n)
    ensures b.NotAnObject? ==> r == (InternalError, n)
    ensures b.Fields? && !Authorized(b, secret) ==> r == (Reply(401, ErrorBody("Unauthorized")), n)
    ensures b.Fields? && Authorized(b, secret) && !(Present(b.uuid) && Present(b.path)) ==>
              r == (Reply(400, ErrorBody("Missing uuid or path")), n)
    ensures r.0.status == 200 <==> b.Fields? && Authorized(b, secret) && Present(b.uuid) && Present(b.path)
    ensures r.0.status == 200 ==>
              && r.1.mirror == Upsert(n.mirror, b.uuid.value, b.path.value)
              && r.1.engine == MasterRestart(n.engine, r.1.mirror, env.placeholder, env.wait, env.spawnOk)
              && r.0.body == SuccessBody(None, |r.1.mirror|)
  {
    match b
    case Unparsable => (Reply(400, ErrorBody("Invalid JSON")), n)
    case NotAnObject => (InternalError, n)
    case Fields(s, u, p) =>
      if !Authorized(b, secret) then (Reply(401, ErrorBody("Unauthorized")), n)
      else if !Present(u) || !Present(p) then (Reply(400, ErrorBody("Missing uuid or path")), n)
      else
        var m := Upsert(n.mirror, u.value, p.value);
        var e := MasterRestart(n.engine, m, env.placeholder, env.wait, env.spawnOk);
        (Reply(200, SuccessBody(None, |m|)), Node(m, e))
  }

  /**
   * `handle_remove_user` of the master variant: bad JSON 400, wrong secret
   * 401, missing or empty uuid 400; a known uuid is deleted, the engine
   * restarted and the new size reported; an unknown one gives 404 without
   * a restart.
   */
  function MasterRemoveUser(n: Node, secret: string, b: Body, env: RestartEnv): (r: (Reply, Node))
    requires Valid(n.mirror)
    ensures b.Unparsable? ==> r == (Reply(400, ErrorBody("Invalid JSON")), n)
    ensures b.NotAnObject? ==> r == (InternalError, n)
    ensures b.Fields? && !Authorized(b, secret) ==> r == (Reply(401, ErrorBody("Unauthorized")), n)
    ensures b.Fields? && Authorized(b, secret) && !Present(b.uuid) ==> r == (Reply(400, ErrorBody("Missing uuid")), n)
    ensures b.Fields? && Authorized(b, secret) && Present(b.uuid) && !Contains(n.mirror, b.uuid.value) ==>
              r == (Reply(404, ErrorBody("User not found")), n)
    ensures r.0.status == 200 <==> b.Fields? && Authorized(b, secret) && Present(b.uuid) && Contains(n.mirror, b.uuid.value)
    ensures r.0.status == 200 ==>
              && r.1.mirror == Delete(n.mirror, b.uuid.value)
              && r.1.engine == MasterRestart(n.engine, r.1.mirror, env.placeholder, env.wait, env.spawnOk)
              && r.0.body == SuccessBody(None, |r.1.mirror|)
  {
    match b
    case Unparsable => (Reply(400, ErrorBody("Invalid JSON")), n)
    case NotAnObject => (InternalError, n)
    case Fields(s, u, _) =>
      if !Authorized(b, secret) then (Reply(401, ErrorBody("Unauthorized")), n)
      else if !Present(u) then (Reply(400, ErrorBody("Missing uuid")), n)
      else if Contains(n.mirror, u.value) then
        var m := Delete(n.mirror, u.value);
        var e := MasterRestart(n.engine, m, env.placeholder, env.wait, env.spawnOk);
        (Reply(200, SuccessBody(None, |m|)), Node(m, e))
      else (Reply(404, ErrorBody("User not found")), n)
  }

  // ---------------------------------------------------------------------
  // worker/main.py
  // ---------------------------------------------------------------------

  /**
   * `handle_add_user` of the worker variant: the body is parsed without a
   * guard, so bad JSON is an unhandled exception (500); then wrong secret
   * 401, missing or empty uuid/path 400; otherwise upsert, restart, and
   * report with a message naming the path.
   */
  function WorkerAddUser(n: Node, secret: string, b: Body, env: RestartEnv): (r: (Reply, Node))
    ensures !b.Fields? ==> r == (InternalError, n)
    ensures b.Fields? && !Authorized(b, secret) ==> r == (Reply(401, ErrorBody("Unauthorized")), n)
    ensures b.Fields? && Authorized(b, secret) && !(Present(b.uuid) && Present(b.path)) ==>
              r == (Reply(400, ErrorBody("Missing data")), n)
    ensures r.0.status == 200 <==> b.Fields? && Authorized(b, secret) && Present(b.uuid) && Present(b.path)
    ensures r.0.status == 200 ==>
              && r.1.mirror == Upsert(n.mirror, b.uuid.value, b.path.value)
              && r.1.engine == WorkerRestart(n.engine, r.1.mirror, env.placeholder, env.spawnOk)
              && r.0.body == SuccessBody(Some("User " + b.path.value + " added"), |r.1.mirror|)
  {
    match b
    case Fields(s, u, p) =>
      if !Authorized(b, secret) then (Reply(401, ErrorBody("Unauthorized")), n)
      else if !Present(u) || !Present(p) then (Reply(400, ErrorBody("Missing data")), n)
      else
        var m := Upsert(n.mirror, u.value, p.value);
        var e := WorkerRestart(n.engine, m, env.placeholder, env.spawnOk);
        (Reply(200, SuccessBody(Some("User " + p.value + " added"), |m|)), Node(m, e))
    case _ => (InternalError, n)
  }

  /**
   * `handle_remove_user` of the worker variant: unguarded parse (500), wrong
   * secret 401, and no check that a uuid was sent: an absent uuid is simply
   * not a key, so it ends in 404 like an unknown one. A known uuid is
   * deleted, the engine restarted, and the new size reported.
   */
  function WorkerRemoveUser(n: Node, secret: string, b: Body, env: RestartEnv): (r: (Reply, Node))
    requires Valid(n.mirror)
    ensures !b.Fields? ==> r == (InternalError, n)
    ensures b.Fields? && !Authorized(b, secret) ==> r == (Reply(401, ErrorBody("Unauthorized")), n)
    ensures b.Fields? && Authorized(b, secret) && !(b.uuid.Some? && Contains(n.mirror, b.uuid.value)) ==>
              r == (Reply(404, ErrorBody("User not found")), n)
    ensures r.0.status == 200 <==> b.Fields? && Authorized(b, secret) && b.uuid.Some? && Contains(n.mirror, b.uuid.value)
    ensures r.0.status == 200 ==>
              && r.1.mirror == Delete(n.mirror, b.uuid.value)
              && r.1.engine == WorkerRestart(n.engine, r.1.mirror, env.placeholder, env.spawnOk)
              && r.0.body == SuccessBody(Some("User removed"), |r.1.mirror|)
  {
    match b
    case Fields(s, u, _) =>
      if !Authorized(b, secret) then (Reply(401, ErrorBody("Unauthorized")), n)
      else if u.Some? && Contains(n.mirror, u.value) then
        var m := Delete(n.mirror, u.value);
        var e := WorkerRestart(n.engine, m, env.placeholder, env.spawnOk);
        (Reply(200, SuccessBody(Some("User removed"), |m|)), Node(m, e))
      else (Reply(404, ErrorBody("User not found")), n)
    case _ => (InternalError, n)
  }

  // ---------------------------------------------------------------------
  // /health
  // ---------------------------------------------------------------------

  datatype Health = Health(status: string, server: string, users: nat, xray: bool)

  /** `handle_health` (both variants): the mirror size and whether the engine process is alive. */
  function HealthReport(n: Node, serverName: string): (h: Health)
    ensures h.status == "ok" && h.server == serverName
    ensures h.users == |n.mirror|
    ensures h.xray <==> EngineAlive(n.engine)
  {
    Health("ok", serverName, |n.mirror|, EngineAlive(n.engine))
  }

  // ---------------------------------------------------------------------
  // Properties of the handlers
  // ---------------------------------------------------------------------

  /** Every rejected request, in either variant, leaves the mirror and the engine exactly as they were. */
  lemma RejectionsChangeNothing(n: Node, secret: string, b: Body, env: RestartEnv)
    requires Valid(n.mirror)
    ensures MasterAddUser(n, secret, b, env).0.status != 200 ==> MasterAddUser(n, secret, b, env).1 == n
    ensures MasterRemoveUser(n, secret, b, env).0.status != 200 ==> MasterRemoveUser(n, secret, b, env).1 == n
    ensures WorkerAddUser(n, secret, b, env).0.status != 200 ==> WorkerAddUser(n, secret, b, env).1 == n
    ensures WorkerRemoveUser(n, secret, b, env).0.status != 200 ==> WorkerRemoveUser(n, secret, b, env).1 == n
  {
  }

  /** The mirror keeps its keys unique through every handler of both variants. */
  lemma HandlersKeepMirrorValid(n: Node, secret: string, b: Body, env: RestartEnv)
    requires Valid(n.mirror)
    ensures Valid(MasterAddUser(n, secret, b, env).1.mirror)
    ensures Valid(MasterRemoveUser(n, secret, b, env).1.mirror)
    ensures Valid(WorkerAddUser(n, secret, b, env).1.mirror)
    ensures Valid(WorkerRemoveUser(n, secret, b, env).1.mirror)
  {
  }

  /**
   * A successful add (either variant) updates the uuid -> path map at one
   * key, reports the number of distinct mirrored credentials, and, when the
   * restart's spawn succeeds, leaves an engine whose clients are exactly
   * the mirrored uuids, the new one included.
   */
  lemma AddUserEffect(n: Node, secret: string, u: string, p: string, env: RestartEnv)
    requires Valid(n.mirror)
    requires u != "" && p != ""
    ensures var b := Fields(Some(secret), Some(u), Some(p));
            var (rm, nm) := MasterAddUser(n, secret, b, env);
            var (rw, nw) := WorkerAddUser(n, secret, b, env);
            && rm.status == 200 && rw.status == 200
            && AsMap(nm.mirror) == AsMap(n.mirror)[u := p]
            && nw.mirror == nm.mirror
            && rm.body.totalUsers == rw.body.totalUsers == |AsMap(nm.mirror)|
            && (env.spawnOk ==>
                  && nm.engine.handle.Running? && nw.engine.handle.Running?
                  && nm.engine.handle.config == nw.engine.handle.config
                  && (forall v :: v in ClientIds(nm.engine.handle.config) <==> v in AsMap(nm.mirror)))
  {
    var m := Upsert(n.mirror, u, p);
    UpsertIsMapUpdate(n.mirror, u, p);
    SizeIsKeyCount(m);
    assert |m| > 0 by {
      assert Lookup(m, u).Some?;
    }
    NodeConfigMatchesMirror(m, env.placeholder);
  }

  /**
   * A successful remove (either variant) deletes exactly that key from the
   * uuid -> path map and reports the number of credentials left.
   */
  lemma RemoveUserEffect(n: Node, secret: string, u: string, env: RestartEnv)
    requires Valid(n.mirror)
    requires u != "" && Contains(n.mirror, u)
    ensures var b := Fields(Some(secret), Some(u), None);
            var (rm, nm) := MasterRemoveUser(n, secret, b, env);
            var (rw, nw) := WorkerRemoveUser(n, secret, b, env);
            && rm.status == 200 && rw.status == 200
            && AsMap(nm.mirror) == AsMap(n.mirror) - {u}
            && nw.mirror == nm.mirror
            && rm.body.totalUsers == rw.body.totalUsers == |AsMap(nm.mirror)|
  {
    var m := Delete(n.mirror, u);
    DeleteIsMapRemoval(n.mirror, u);
    SizeIsKeyCount(m);
  }

  /** Repeating an add leaves the same mirror and reports the same size; only another restart happens. */
  lemma AddUserIdempotent(n: Node, secret: string, b: Body, env1: RestartEnv, env2: RestartEnv)
    ensures var (r1, n1) := MasterAddUser(n, secret, b, env1);
            var (r2, n2) := MasterAddUser(n1, secret, b, env2);
            n2.mirror == n1.mirror && r2 == r1
    ensures var (r1, n1) := WorkerAddUser(n, secret, b, env1);
            var (r2, n2) := WorkerAddUser(n1, secret, b, env2);
            n2.mirror == n1.mirror && r2 == r1
  {
    if b.Fields? && Present(b.uuid) && Present(b.path) {
      UpsertIdempotent(n.mirror, b.uuid.value, b.path.value);
    }
  }

  /** Repeating a remove is rejected with 404 and changes nothing further. */
  lemma RemoveUserIdempotent(n: Node, secret: string, b: Body, env1: RestartEnv, env2: RestartEnv)
    requires Valid(n.mirror)
    ensures var (r1, n1) := MasterRemoveUser(n, secret, b, env1);
            var (r2, n2) := MasterRemoveUser(n1, secret, b, env2);
            n2.mirror == n1.mirror && (r1.status == 200 ==> r2.status == 404 && n2 == n1)
    ensures var (r1, n1) := WorkerRemoveUser(n, secret, b, env1);
            var (r2, n2) := WorkerRemoveUser(n1, secret, b, env2);
            n2.mirror == n1.mirror && (r1.status == 200 ==> r2.status == 404 && n2 == n1)
  {
    if b.Fields? && b.uuid.Some? {
      DeleteIdempotent(n.mirror, b.uuid.value);
    }
  }

  /**
   * The variants agree on every well-formed request (a JSON object naming
   * a non-empty uuid): same status, same mirror, same reported size.
   */
  lemma VariantsAgreeOnWellFormedRequests(n: Node, secret: string, b: Body, env: RestartEnv)
    requires Valid(n.mirror)
    requires b.Fields? && Present(b.uuid)
    ensures MasterAddUser(n, secret, b, env).0.status == WorkerAddUser(n, secret, b, env).0.status
    ensures MasterAddUser(n, secret, b, env).1.mirror == WorkerAddUser(n, secret, b, env).1.mirror
    ensures MasterRemoveUser(n, secret, b, env).0.status == WorkerRemoveUser(n, secret, b, env).0.status
    ensures MasterRemoveUser(n, secret, b, env).1.mirror == WorkerRemoveUser(n, secret, b, env).1.mirror
  {
  }

  /**
   * Where the variants differ: the master answers unparsable JSON with 400
   * and the worker with 500; an authorised remove that names no uuid is 400
   * on the master and 404 on the worker.
   */
  lemma VariantsDiffer(n: Node, secret: string, env: RestartEnv)
    requires Valid(n.mirror)
    ensures MasterAddUser(n, secret, Unparsable, env).0.status == 400
    ensures WorkerAddUser(n, secret, Unparsable, env).0.status == 500
    ensures MasterRemoveUser(n, secret, Fields(Some(secret), None, None), env).0.status == 400
    ensures WorkerRemoveUser(n, secret, Fields(Some(secret), None, None), env).0.status == 404
  {
  }
}

=== FILE: relay.dfy ===
/**
 * The WebSocket tunnel relay: per connection, two forwarding loops copy
 * frames from one socket to the other (`forward_to_xray`/`forward_to_client`
 * in `main.py`, `forward` in `master/main.py`, `fwd` in `worker/main.py`).
 * A loop is modelled as a function from the frames its source delivers to
 * the frames it sends to its peer. Fleet nodes also gate the tunnel on the
 * `Upgrade` request header.
 */
module Relay {
  import opened Wrappers
  import Text

  /** The message types an aiohttp WebSocket can yield (`WSMsgType`). */
  datatype Frame =
    | Binary(data: seq<Text.Byte>)
    | TextFrame(text: string)
    | Ping
    | Pong
    | Close
    | Closing
    | Closed
    | Error

  /**
   * Which loop: the single-node service breaks only at CLOSE; fleet nodes
   * break at CLOSE or ERROR.
   */
  datatype Variant = SingleNode | FleetNode

  /** Frames that are copied to the peer. */
  predicate IsData(f: Frame) {
    f.Binary? || f.TextFrame?
  }

  /**
   * Frames that end the loop. aiohttp's `async for` over a WebSocket stops
   * by itself at CLOSE, CLOSING and CLOSED, before the loop body sees them;
   * a fleet node's body also breaks at ERROR.
   */
  predicate Stops(f: Frame, v: Variant) {
    f.Close? || f.Closing? || f.Closed? || (v == FleetNode && f.Error?)
  }

  /**
   * One forwarding loop: BINARY goes out with `send_bytes`, TEXT with
   * `send_str` (so each keeps its type and payload), a terminating frame
   * breaks the loop, and anything else is skipped. The loop also ends when
   * the source runs out.
   */
  function Forward(frames: seq<Frame>, v: Variant): (out: seq<Frame>)
    ensures |out| <= |frames|
    ensures forall i :: 0 <= i < |out| ==> IsData(out[i])
    decreases |frames|
  {
    if |frames| == 0 then []
    else if IsData(frames[0]) then [frames[0]] + Forward(frames[1..], v)
    else if Stops(frames[0], v) then []
    else Forward(frames[1..], v)
  }

  /** Reference filter: the data frames of a stream, in order. */
  function DataFrames(s: seq<Frame>): (out: seq<Frame>)
    ensures |out| <= |s|
    ensures forall f :: f in out <==> f in s && IsData(f)
  {
    if |s| == 0 then []
    else if IsData(s[0]) then [s[0]] + DataFrames(s[1..])
    else DataFrames(s[1..])
  }

  /**
   * What a loop forwards is exactly the data frames of the stream's prefix
   * before its first terminating frame (or of the whole stream when none
   * comes), in order.
   */
  lemma {:induction false} ForwardIsDataBeforeStop(frames: seq<Frame>, v: Variant, k: nat)
    requires k <= |frames|
    requires forall j :: 0 <= j < k ==> !Stops(frames[j], v)
    requires k < |frames| ==> Stops(frames[k], v)
    ensures Forward(frames, v) == DataFrames(frames[..k])
    decreases |frames|
  {
    if |frames| > 0 {
      if k == 0 {
        assert Stops(frames[0], v);
      } else {
        assert !Stops(frames[0], v);
        ForwardIsDataBeforeStop(frames[1..], v, k - 1);
        assert frames[1..][..k - 1] == frames[..k][1..];
      }
    }
  }

  /** Relay fidelity: a run of data frames followed by CLOSE reaches the peer unchanged, whatever comes after. */
  lemma {:induction false} ForwardDeliversDataUntilClose(data: seq<Frame>, rest: seq<Frame>, v: Variant)
    requires forall i :: 0 <= i < |data| ==> IsData(data[i])
    ensures Forward(data + [Close] + rest, v) == data
    decreases |data|
  {
    if |data| == 0 {
      assert (data + [Close] + rest)[0] == Close;
    } else {
      assert (data + [Close] + rest)[1..] == data[1..] + [Close] + rest;
      ForwardDeliversDataUntilClose(data[1..], rest, v);
      assert [data[0]] + data[1..] == data;
    }
  }

  /** Forwarding is incremental: a prefix without a terminating frame is forwarded before the rest. */
  lemma {:induction false} ForwardAppend(a: seq<Frame>, b: seq<Frame>, v: Variant)
    requires forall j :: 0 <= j < |a| ==> !Stops(a[j], v)
    ensures Forward(a + b, v) == Forward(a, v) + Forward(b, v)
    decreases |a|
  {
    if |a| == 0 {
      assert a + b == b;
    } else {
      assert (a + b)[0] == a[0];
      assert (a + b)[1..] == a[1..] + b;
      ForwardAppend(a[1..], b, v);
    }
  }

  /** On streams without ERROR frames the single-node and fleet loops forward the same frames. */
  lemma {:induction false} VariantsAgreeWithoutErrors(frames: seq<Frame>)
    requires forall i :: 0 <= i < |frames| ==> !frames[i].Error?
    ensures Forward(frames, SingleNode) == Forward(frames, FleetNode)
    decreases |frames|
  {
    if |frames| > 0 {
      VariantsAgreeWithoutErrors(frames[1..]);
    }
  }

  /**
   * The loop bodies differ on ERROR: it ends a fleet loop but is skipped by
   * the single-node loop. (A real socket yields nothing but CLOSED after
   * ERROR, so the difference is not observable there; see
   * `VariantsAgreeOnSocketStreams`.)
   */
  lemma ErrorFrameDistinguishesVariants(payload: seq<Text.Byte>)
    ensures Forward([Error, Binary(payload)], SingleNode) == [Binary(payload)]
    ensures Forward([Error, Binary(payload)], FleetNode) == []
  {
    assert [Error, Binary(payload)][1..] == [Binary(payload)];
  }

  /** What aiohttp can deliver: after an ERROR the socket is closed, so only CLOSED can follow. */
  predicate ClosedAfterError(frames: seq<Frame>) {
    forall i :: 0 <= i < |frames| - 1 && frames[i].Error? ==> frames[i + 1].Closed?
  }

  /** On every stream a socket can deliver, the single-node and fleet loops forward the same frames. */
  lemma {:induction false} VariantsAgreeOnSocketStreams(frames: seq<Frame>)
    requires ClosedAfterError(frames)
    ensures Forward(frames, SingleNode) == Forward(frames, FleetNode)
    decreases |frames|
  {
    if |frames| > 0 {
      if frames[0].Error? {
        if |frames| > 1 {
          assert frames[1].Closed?;
          assert Forward(frames[1..], SingleNode) == [];
        }
      } else {
        assert ClosedAfterError(frames[1..]) by {
          forall i | 0 <= i < |frames[1..]| - 1 && frames[1..][i].Error?
            ensures frames[1..][i + 1].Closed?
          {
            assert frames[i + 1].Error?;
          }
        }
        VariantsAgreeOnSocketStreams(frames[1..]);
      }
    }
  }

  // ---------------------------------------------------------------------
  // The upgrade gate and the tunnel handlers
  // ---------------------------------------------------------------------

  const WebSocketToken: string := "websocket"

  /** The gate passes when `request.headers.get("Upgrade", "").lower() == "websocket"`. */
  function UpgradeAccepted(upgrade: Option<string>): (b: bool)
    ensures b ==> upgrade.Some? && |upgrade.value| == |WebSocketToken|
    ensures upgrade == Some(WebSocketToken) ==> b
  {
    Text.Lower(upgrade.GetOr("")) == WebSocketToken
  }

  /**
   * The gate accepts exactly the nine-letter spellings of "websocket" in
   * any mix of cases, the `k` also as KELVIN SIGN; a missing header is
   * rejected.
   */
  lemma UpgradeAcceptedSpellings(upgrade: Option<string>)
    ensures UpgradeAccepted(upgrade) <==>
              && upgrade.Some?
              && |upgrade.value| == |WebSocketToken|
              && forall i :: 0 <= i < |WebSocketToken| ==>
                   || upgrade.value[i] == WebSocketToken[i]
                   || upgrade.value[i] as int == WebSocketToken[i] as int - 32
                   || (WebSocketToken[i] == 'k' && upgrade.value[i] == Text.KelvinSign)
  {
    var h := upgrade.GetOr("");
    var l := Text.Lower(h);
    forall i | 0 <= i < |WebSocketToken| && i < |h|
      ensures l[i] == WebSocketToken[i] <==>
                || h[i] == WebSocketToken[i]
                || h[i] as int == WebSocketToken[i] as int - 32
                || (WebSocketToken[i] == 'k' && h[i] == Text.KelvinSign)
    {
      Text.LowerCharPreimage(h[i], WebSocketToken[i]);
    }
    if upgrade.None? {
      assert |l| == 0;
    }
  }

  /**
   * Result of a tunnel request: refused by the upgrade gate; refused by
   * aiohttp's handshake in `prepare()` (a 400 with aiohttp's own text);
   * handshake done but the engine's local endpoint did not answer; or
   * relayed.
   */
  datatype Tunnel =
    | Rejected(status: nat, text: string)
    | HandshakeFailed
    | EngineUnreachable
    | Relayed(toEngine: seq<Frame>, toClient: seq<Frame>)

  /** Both directions of one relayed connection. */
  function Relay(fromClient: seq<Frame>, fromEngine: seq<Frame>, v: Variant): (t: Tunnel)
    ensures t.Relayed?
  {
    Relayed(Forward(fromClient, v), Forward(fromEngine, v))
  }

  /**
   * `vless_ws` of `main.py`: no gate of its own. `prepare()` answers an
   * invalid handshake with aiohttp's 400; after it, an engine endpoint that
   * does not answer raises out of the handler (no try around `ws_connect`);
   * otherwise both loops run.
   */
  function SingleNodeTunnel(handshakeOk: bool, engineReachable: bool,
                            fromClient: seq<Frame>, fromEngine: seq<Frame>): (t: Tunnel)
    ensures !t.Rejected?
    ensures t.HandshakeFailed? <==> !handshakeOk
    ensures t.EngineUnreachable? <==> handshakeOk && !engineReachable
    ensures t.Relayed? <==> handshakeOk && engineReachable
  {
    if !handshakeOk then HandshakeFailed
    else if !engineReachable then EngineUnreachable
    else Relay(fromClient, fromEngine, SingleNode)
  }

  /**
   * `handle_tunnel` of a fleet node: 400 with the variant's text unless
   * the gate passes; then `prepare()`, which may refuse the handshake;
   * then, if the engine's local endpoint answers, both loops run until
   * CLOSE or ERROR.
   */
  function FleetTunnel(rejectText: string, upgrade: Option<string>, handshakeOk: bool, engineReachable: bool,
                       fromClient: seq<Frame>, fromEngine: seq<Frame>): (t: Tunnel)
    ensures !UpgradeAccepted(upgrade) <==> t.Rejected?
    ensures t.Rejected? ==> t.status == 400 && t.text == rejectText
    ensures t.HandshakeFailed? <==> UpgradeAccepted(upgrade) && !handshakeOk
    ensures t.EngineUnreachable? <==> UpgradeAccepted(upgrade) && handshakeOk && !engineReachable
    ensures t.Relayed? <==> UpgradeAccepted(upgrade) && handshakeOk && engineReachable
  {
    if !UpgradeAccepted(upgrade) then Rejected(400, rejectText)
    else if !handshakeOk then HandshakeFailed
    else if !engineReachable then EngineUnreachable
    else Relay(fromClient, fromEngine, FleetNode)
  }

  /** The rejection texts of `master/main.py` and `worker/main.py`. */
  const MasterRejectText: string := "WebSocket required"
  const WorkerRejectText: string := "WS only"

  /**
   * End to end: on a tunnel that passed the gate and the handshake and
   * reached the engine, each side receives exactly the data frames the
   * other side sent before closing, in order and with their types.
   */
  lemma TunnelFidelity(rejectText: string, upgrade: Option<string>,
                       up: seq<Frame>, down: seq<Frame>, restUp: seq<Frame>, restDown: seq<Frame>)
    requires UpgradeAccepted(upgrade)
    requires forall i :: 0 <= i < |up| ==> IsData(up[i])
    requires forall i :: 0 <= i < |down| ==> IsData(down[i])
    ensures FleetTunnel(rejectText, upgrade, true, true, up + [Close] + restUp, down + [Close] + restDown)
              == Relayed(up, down)
    ensures SingleNodeTunnel(true, true, up + [Close] + restUp, down + [Close] + restDown) == Relayed(up, down)
  {
    ForwardDeliversDataUntilClose(up, restUp, FleetNode);
    ForwardDeliversDataUntilClose(down, restDown, FleetNode);
    ForwardDeliversDataUntilClose(up, restUp, SingleNode);
    ForwardDeliversDataUntilClose(down, restDown, SingleNode);
  }
}

=== FILE: single_node.dfy ===
/**
 * The single-node service as a whole (`main.py`): the tables, the engine
 * configuration file regenerated from them, and the configuration the
 * running engine process loaded when it was started.
 */
module SingleNode {
  import opened Wrappers
  import Store
  import XrayConfig

  /** The tables, the configuration file on disk and the configuration the running engine serves. */
  datatype Service = Service(db: Store.Db, configFile: XrayConfig.Config, engine: XrayConfig.Config)

  /**
   * `regenerate_xray_config()`: the configuration built from the active-user
   * query; every client it lists is an active user or the placeholder.
   */
  function Regenerate(db: Store.Db, placeholder: string): (c: XrayConfig.Config)
    ensures XrayConfig.WellFormedVless(c) && c.inbound.port == XrayConfig.MainPort
    ensures forall k :: 0 <= k < |XrayConfig.ClientIds(c)| ==>
              || XrayConfig.ClientIds(c)[k] == placeholder
              || exists i :: 0 <= i < |db.users| && db.users[i].active && db.users[i].uuid == XrayConfig.ClientIds(c)[k]
  {
    var rows := Store.ActiveUsers(db.users);
    var c := XrayConfig.MainConfig(rows, placeholder);
    assert forall k :: 0 <= k < |rows| ==> rows[k] in rows;
    c
  }

  /** Whether the engine lets a VLESS client with this uuid in. */
  predicate Admits(c: XrayConfig.Config, uuid: string) {
    uuid in XrayConfig.ClientIds(c)
  }

  /**
   * The regenerated configuration admits exactly the active users; with no
   * active user it admits only the placeholder.
   */
  lemma RegenerateAdmitsActiveUsers(db: Store.Db, placeholder: string, uuid: string)
    ensures (exists i :: 0 <= i < |db.users| && db.users[i].active) ==>
              (Admits(Regenerate(db, placeholder), uuid) <==>
               exists i :: 0 <= i < |db.users| && db.users[i].active && db.users[i].uuid == uuid)
    ensures (forall i :: 0 <= i < |db.users| ==> !db.users[i].active) ==>
              XrayConfig.ClientIds(Regenerate(db, placeholder)) == [placeholder]
  {
    var rows := Store.ActiveUsers(db.users);
    var ids := XrayConfig.ClientIds(Regenerate(db, placeholder));
    if exists i :: 0 <= i < |db.users| && db.users[i].active {
      var i :| 0 <= i < |db.users| && db.users[i].active;
      assert (db.users[i].uuid, db.users[i].path) in rows;
      if uuid in ids {
        var k :| 0 <= k < |ids| && ids[k] == uuid;
        assert rows[k] in rows;
      }
      if exists i :: 0 <= i < |db.users| && db.users[i].active && db.users[i].uuid == uuid {
        var j :| 0 <= j < |db.users| && db.users[j].active && db.users[j].uuid == uuid;
        assert (db.users[j].uuid, db.users[j].path) in rows;
        var k :| 0 <= k < |rows| && rows[k] == (db.users[j].uuid, db.users[j].path);
        assert ids[k] == uuid;
      }
    }
  }

  /** The service's engine serves what the file says, and the file reflects the tables. */
  predicate InSync(s: Service, placeholder: string) {
    s.engine == s.configFile && s.configFile == Regenerate(s.db, placeholder)
  }

  /**
   * `main()`: regenerate the configuration, then start the engine on it.
   * `spawnOk` says whether the engine process could be spawned; the spawn
   * is not guarded, so a failure propagates out of `main()` and the service
   * never comes up, which is `None`.
   */
  function Boot(db: Store.Db, placeholder: string, spawnOk: bool): (r: Option<Service>)
    ensures r.Some? <==> spawnOk
    ensures r.Some? ==> r.value.db == db && r.value.engine == r.value.configFile
    ensures r.Some? ==> InSync(r.value, placeholder)
  {
    if !spawnOk then None
    else
      var c := Regenerate(db, placeholder);
      Some(Service(db, c, c))
  }

  /**
   * `activate_key` as the service runs it: only a newly created subscriber
   * rewrites the configuration file, and the running engine is left alone,
   * so it keeps serving the configuration it was started with.
   */
  function ActivateAsWritten(s: Service, key: string, userId: int, username: string, freshUuid: string, placeholder: string): (r: (Service, Result<string, Store.StoreError>))
    ensures r.0.engine == s.engine
    ensures r.0.db == Store.Activate(s.db, key, userId, username, freshUuid).0
    ensures r.1 == Store.Activate(s.db, key, userId, username, freshUuid).1
    ensures r.0.db != s.db ==> r.0.configFile == Regenerate(r.0.db, placeholder)
    ensures r.0.db == s.db ==> r.0 == s
  {
    var (db', res) := Store.Activate(s.db, key, userId, username, freshUuid);
    if db' == s.db then (s, res)
    else (Service(db', Regenerate(db', placeholder), s.engine), res)
  }

  /**
   * The first subscriber of a freshly booted service is told activation
   * succeeded, yet the running engine does not admit the new uuid.
   */
  lemma NewSubscriberLockedOut()
    ensures var db := Store.Db([], [Store.Key(1, "NEFRIT-0000000000000000", false, None)]);
            var s := Boot(db, "placeholder", true).value;
            var (s', res) := ActivateAsWritten(s, "NEFRIT-0000000000000000", 7, "alice", "uuid-7", "placeholder");
            res == Ok("u7") && !Admits(s'.engine, "uuid-7")
  {
    var db := Store.Db([], [Store.Key(1, "NEFRIT-0000000000000000", false, None)]);
    var s := Boot(db, "placeholder", true).value;
    assert XrayConfig.ClientIds(s.engine) == ["placeholder"];
    assert Store.FindKey(db.keys, "NEFRIT-0000000000000000") == Some(0);
    assert Store.UserPath(7) == "u7";
  }

  /**
   * `activate_key` followed by a restart of the engine on the regenerated
   * file, as the fleet nodes' `restart_xray` does after every mirror change.
   */
  function Activate(s: Service, key: string, userId: int, username: string, freshUuid: string, placeholder: string): (r: (Service, Result<string, Store.StoreError>))
    ensures r.0.db == Store.Activate(s.db, key, userId, username, freshUuid).0
    ensures r.1 == Store.Activate(s.db, key, userId, username, freshUuid).1
    ensures r.0.db != s.db ==> InSync(r.0, placeholder)
    ensures r.0.db == s.db ==> r.0 == s
  {
    var (db', res) := Store.Activate(s.db, key, userId, username, freshUuid);
    if db' == s.db then (s, res)
    else
      var c := Regenerate(db', placeholder);
      (Service(db', c, c), res)
  }

  /**
   * With the restart, every subscriber an activation creates is admitted by
   * the running engine, and the engine stays in step with the tables.
   */
  lemma ActivatedSubscriberAdmitted(s: Service, key: string, userId: int, username: string, freshUuid: string, placeholder: string)
    requires InSync(s, placeholder)
    ensures var (s', res) := Activate(s, key, userId, username, freshUuid, placeholder);
            InSync(s', placeholder)
    ensures var (s', res) := Activate(s, key, userId, username, freshUuid, placeholder);
            s'.db != s.db ==> Admits(s'.engine, freshUuid)
  {
    var (s', res) := Activate(s, key, userId, username, freshUuid, placeholder);
    if s'.db != s.db {
      var n := |s.db.users|;
      assert s'.db.users[n] == Store.User(userId, username, freshUuid, Store.UserPath(userId), true);
      RegenerateAdmitsActiveUsers(s'.db, placeholder, freshUuid);
    }
  }
}

=== FILE: store.dfy ===
/**
 * The single-node service's subscription store (`main.py`): the SQLite
 * `users` and `keys` tables as sequences in rowid order, and the queries
 * and updates the service runs against them: key minting, key activation,
 * the active-user query, the admin key list and the statistics.
 */
module Store {
  import opened Wrappers
  import opened Text

  /** A `users` row (its integer `id` and `created_at` are not modelled). */
  datatype User = User(userId: int, username: string, uuid: string, path: string, active: bool)

  /** A `keys` row. */
  datatype Key = Key(id: int, key: string, used: bool, usedBy: Option<int>)

  /** Both tables, each in rowid order. */
  datatype Db = Db(users: seq<User>, keys: seq<Key>)

  const KeyPrefix: string := "NEFRIT-"

  /** Bytes of randomness behind a key (`secrets.token_hex(8)`). */
  const KeyTokenBytes: nat := 8

  /** Rows shown by the admin key list (`LIMIT 15`). */
  const KeysListLimit: nat := 15

  /** The `UNIQUE` constraints on `users.user_id`, `users.user_uuid` and `users.path`. */
  ghost predicate UsersUnique(users: seq<User>) {
    forall i, j :: 0 <= i < j < |users| ==>
      && users[i].userId != users[j].userId
      && users[i].uuid != users[j].uuid
      && users[i].path != users[j].path
  }

  /** Key ids grow along the table (rowid order), which makes them unique. */
  ghost predicate IdsIncreasing(keys: seq<Key>) {
    forall i, j :: 0 <= i < j < |keys| ==> keys[i].id < keys[j].id
  }

  /** The `UNIQUE` constraint on `keys.key`. */
  ghost predicate KeysUnique(keys: seq<Key>) {
    forall i, j :: 0 <= i < j < |keys| ==> keys[i].key != keys[j].key
  }

  /** What the database guarantees, plus the shape every user row has: it was created by an activation, so its path is derived from its user id. */
  ghost predicate Valid(db: Db) {
    && UsersUnique(db.users)
    && IdsIncreasing(db.keys)
    && KeysUnique(db.keys)
    && forall i :: 0 <= i < |db.users| ==> db.users[i].path == UserPath(db.users[i].userId)
  }

  /** The subscription path of a user: `f"u{user_id}"`. */
  function UserPath(userId: int): (p: string)
    ensures |p| > 1 && p[0] == 'u'
  {
    "u" + IntToString(userId)
  }

  /** Distinct users get distinct paths. */
  lemma UserPathInjective(a: int, b: int)
    ensures UserPath(a) == UserPath(b) ==> a == b
  {
    if UserPath(a) == UserPath(b) {
      assert IntToString(a) == UserPath(a)[1..] == UserPath(b)[1..] == IntToString(b);
      IntToStringInjective(a, b);
    }
  }

  // ---------------------------------------------------------------------
  // Single-row lookups (`SELECT ... WHERE col = ?` + `fetchone()`)
  // ---------------------------------------------------------------------

  /** The first row satisfying `p`, as `fetchone()` returns it. */
  function FirstWhere<T>(s: seq<T>, p: T -> bool): (r: Option<nat>)
    ensures r.None? <==> forall i :: 0 <= i < |s| ==> !p(s[i])
    ensures r.Some? ==> r.value < |s| && p(s[r.value])
    ensures r.Some? ==> forall i :: 0 <= i < r.value ==> !p(s[i])
  {
    if |s| == 0 then None
    else if p(s[0]) then Some(0)
    else
      match FirstWhere(s[1..], p)
      case None => None
      case Some(i) => Some(i + 1)
  }

  function FindKey(keys: seq<Key>, key: string): Option<nat> {
    FirstWhere(keys, (k: Key) => k.key == key)
  }

  function FindUser(users: seq<User>, userId: int): Option<nat> {
    FirstWhere(users, (u: User) => u.userId == userId)
  }

  function FindPath(users: seq<User>, path: string): Option<nat> {
    FirstWhere(users, (u: User) => u.path == path)
  }

  /** With unique keys, the row found is the only one with that key. */
  lemma FindKeyUnique(keys: seq<Key>, key: string, j: nat)
    requires KeysUnique(keys)
    requires j < |keys| && keys[j].key == key
    ensures FindKey(keys, key) == Some(j)
  {
  }

  // ---------------------------------------------------------------------
  // create_key
  // ---------------------------------------------------------------------

  /** A well-formed activation key: the prefix and sixteen upper-case hex digits. */
  predicate IsKeyFormat(k: string) {
    && |k| == |KeyPrefix| + 2 * KeyTokenBytes
    && k[..|KeyPrefix|] == KeyPrefix
    && forall i :: |KeyPrefix| <= i < |k| ==> IsUpperHex(k[i])
  }

  /** The largest key id, 0 for an empty table. */
  function MaxId(keys: seq<Key>): (m: int)
    ensures forall i :: 0 <= i < |keys| ==> keys[i].id <= m
    ensures |keys| > 0 ==> exists i :: 0 <= i < |keys| && keys[i].id == m
    ensures |keys| == 0 ==> m == 0
  {
    if |keys| == 0 then 0
    else if |keys| == 1 then keys[0].id
    else
      var m := MaxId(keys[1..]);
      if keys[0].id > m then keys[0].id else m
  }

  /** The rowid SQLite gives a new row: one past the largest, or 1 in an empty table. */
  function NextKeyId(keys: seq<Key>): (id: int)
    ensures forall i :: 0 <= i < |keys| ==> keys[i].id < id
  {
    MaxId(keys) + 1
  }

  datatype StoreError =
    | KeyNotFound      // the "key not found" reply
    | KeyAlreadyUsed   // the "key already used" reply
    | Conflict         // an INSERT broke a UNIQUE constraint; sqlite3 raises and nothing is committed

  /**
   * `create_key()`: the key is `"NEFRIT-"` followed by the upper-cased hex
   * of eight random bytes, inserted unused. A clash with an existing key
   * makes the INSERT raise and nothing changes.
   */
  function CreateKey(db: Db, token: seq<Byte>): (r: (Db, Result<string, StoreError>))
    requires |token| == KeyTokenBytes
    ensures r.1.Ok? ==> IsKeyFormat(r.1.value)
    ensures r.1.Ok? ==> HexDecode(r.1.value[|KeyPrefix|..]) == token
    ensures r.1.Ok? <==> forall i :: 0 <= i < |db.keys| ==> db.keys[i].key != KeyPrefix + HexUpper(token)
    ensures r.1.Err? ==> r.1.error == Conflict && r.0 == db
    ensures r.1.Ok? ==>
              && r.0.users == db.users
              && |r.0.keys| == |db.keys| + 1
              && r.0.keys[..|db.keys|] == db.keys
              && var k := r.0.keys[|db.keys|];
                 && k.key == r.1.value && !k.used && k.usedBy == None
                 && forall i :: 0 <= i < |db.keys| ==> db.keys[i].id < k.id
  {
    var key := KeyPrefix + HexUpper(token);
    HexRoundTrip(token);
    assert key[|KeyPrefix|..] == HexUpper(token);
    if FindKey(db.keys, key).Some? then (db, Err(Conflict))
    else
      var keys' := db.keys + [Key(NextKeyId(db.keys), key, false, None)];
      assert keys'[..|db.keys|] == db.keys;
      (db.(keys := keys'), Ok(key))
  }

  /** Minting a key keeps the tables valid: the new key is unique and has the largest id. */
  lemma CreateKeyPreservesValid(db: Db, token: seq<Byte>)
    requires |token| == KeyTokenBytes
    requires Valid(db)
    ensures Valid(CreateKey(db, token).0)
  {
    var (db', res) := CreateKey(db, token);
    if res.Ok? {
      assert forall i :: 0 <= i < |db.keys| ==> db'.keys[i] == db.keys[i];
    }
  }

  // ---------------------------------------------------------------------
  // activate_key
  // ---------------------------------------------------------------------

  /** `UPDATE keys SET is_used = 1, used_by = ? WHERE key = ?`. */
  function MarkUsed(keys: seq<Key>, key: string, userId: int): (r: seq<Key>)
    ensures |r| == |keys|
    ensures forall i :: 0 <= i < |keys| ==> r[i].id == keys[i].id && r[i].key == keys[i].key
    ensures forall i :: 0 <= i < |keys| && keys[i].key != key ==> r[i] == keys[i]
    ensures forall i :: 0 <= i < |keys| && keys[i].key == key ==> r[i].used && r[i].usedBy == Some(userId)
  {
    seq(|keys|, i requires 0 <= i < |keys| =>
      if keys[i].key == key then keys[i].(used := true, usedBy := Some(userId)) else keys[i])
  }

  /** Whether inserting `row` would break one of the `users` UNIQUE constraints. */
  predicate Clashes(users: seq<User>, row: User) {
    exists i :: 0 <= i < |users| && (users[i].userId == row.userId || users[i].uuid == row.uuid || users[i].path == row.path)
  }

  /**
   * `activate_key(key, user_id, username)` with `freshUuid` standing for
   * `uuid.uuid4()`: an unknown key fails, then a used key fails; a user who
   * already has a row gets that row's path back and the key stays unused;
   * otherwise a user row with path `u<user_id>` is inserted and the key is
   * marked as used by that user. Failures change nothing.
   */
  function Activate(db: Db, key: string, userId: int, username: string, freshUuid: string): (r: (Db, Result<string, StoreError>))
    ensures r.1.Err? ==> r.0 == db
    ensures r.1 == Err(KeyNotFound) <==> forall i :: 0 <= i < |db.keys| ==> db.keys[i].key != key
    ensures r.1.Ok? ==> exists j :: 0 <= j < |r.0.users| && r.0.users[j].userId == userId && r.0.users[j].path == r.1.value
    ensures r.0 != db ==> FindKey(db.keys, key).Some? && !db.keys[FindKey(db.keys, key).value].used
    ensures r.0 != db ==> r.0.users == db.users + [User(userId, username, freshUuid, UserPath(userId), true)]
                          && r.0.keys == MarkUsed(db.keys, key, userId)
                          && r.1 == Ok(UserPath(userId))
  {
    match FindKey(db.keys, key)
    case None => (db, Err(KeyNotFound))
    case Some(i) =>
      if db.keys[i].used then (db, Err(KeyAlreadyUsed))
      else
        match FindUser(db.users, userId)
        case Some(j) => (db, Ok(db.users[j].path))
        case None =>
          var row := User(userId, username, freshUuid, UserPath(userId), true);
          if Clashes(db.users, row) then (db, Err(Conflict))
          else
            var users' := db.users + [row];
            assert users'[|db.users|] == row;
            (Db(users', MarkUsed(db.keys, key, userId)), Ok(row.path))
  }

  /** A key that exists but is already used is refused, and nothing changes. */
  lemma ActivateUsedKey(db: Db, key: string, userId: int, username: string, freshUuid: string, i: nat)
    requires Valid(db)
    requires i < |db.keys| && db.keys[i].key == key && db.keys[i].used
    ensures Activate(db, key, userId, username, freshUuid) == (db, Err(KeyAlreadyUsed))
  {
    FindKeyUnique(db.keys, key, i);
  }

  /** A user who already has a row gets that path back; the key stays unused and no row is added. */
  lemma ActivateExistingUser(db: Db, key: string, userId: int, username: string, freshUuid: string, i: nat, j: nat)
    requires Valid(db)
    requires i < |db.keys| && db.keys[i].key == key && !db.keys[i].used
    requires j < |db.users| && db.users[j].userId == userId
    ensures Activate(db, key, userId, username, freshUuid) == (db, Ok(db.users[j].path))
  {
    FindKeyUnique(db.keys, key, i);
    assert FindUser(db.users, userId) == Some(j);
  }

  /**
   * A successful first activation adds exactly one active row with path
   * `u<user_id>` and the fresh uuid, marks exactly the redeemed key as used
   * by that user and leaves every other key as it was; the only way it can
   * fail is a uuid clash.
   */
  lemma ActivateNewUser(db: Db, key: string, userId: int, username: string, freshUuid: string, i: nat)
    requires Valid(db)
    requires i < |db.keys| && db.keys[i].key == key && !db.keys[i].used
    requires forall j :: 0 <= j < |db.users| ==> db.users[j].userId != userId
    ensures var (db', res) := Activate(db, key, userId, username, freshUuid);
            (forall j :: 0 <= j < |db.users| ==> db.users[j].uuid != freshUuid) <==> res.Ok?
    ensures var (db', res) := Activate(db, key, userId, username, freshUuid);
            res.Ok? ==>
              && res.value == UserPath(userId)
              && db'.users == db.users + [User(userId, username, freshUuid, UserPath(userId), true)]
              && |db'.keys| == |db.keys|
              && db'.keys[i] == Key(db.keys[i].id, key, true, Some(userId))
              && (forall k :: 0 <= k < |db.keys| && k != i ==> db'.keys[k] == db.keys[k])
  {
    FindKeyUnique(db.keys, key, i);
    var row := User(userId, username, freshUuid, UserPath(userId), true);
    forall j | 0 <= j < |db.users|
      ensures db.users[j].path != row.path
    {
      UserPathInjective(db.users[j].userId, userId);
    }
  }

  /** Appending a row that clashes with none keeps the user constraints. */
  lemma AppendUserKeepsUnique(users: seq<User>, row: User)
    requires UsersUnique(users)
    requires !Clashes(users, row)
    ensures UsersUnique(users + [row])
  {
    var r := users + [row];
    assert forall i :: 0 <= i < |users| ==> r[i] == users[i];
  }

  /** Marking keys as used changes neither ids nor key texts. */
  lemma MarkUsedKeepsKeys(keys: seq<Key>, key: string, userId: int)
    requires IdsIncreasing(keys) && KeysUnique(keys)
    ensures IdsIncreasing(MarkUsed(keys, key, userId)) && KeysUnique(MarkUsed(keys, key, userId))
  {
    var r := MarkUsed(keys, key, userId);
    assert forall k :: 0 <= k < |r| ==> r[k].id == keys[k].id && r[k].key == keys[k].key;
  }

  /** Every activation, whatever its outcome, keeps the tables valid. */
  lemma ActivatePreservesValid(db: Db, key: string, userId: int, username: string, freshUuid: string)
    requires Valid(db)
    ensures Valid(Activate(db, key, userId, username, freshUuid).0)
  {
    var db' := Activate(db, key, userId, username, freshUuid).0;
    if db' != db {
      var row := User(userId, username, freshUuid, UserPath(userId), true);
      assert !Clashes(db.users, row);
      AppendUserKeepsUnique(db.users, row);
      MarkUsedKeepsKeys(db.keys, key, userId);
      assert forall i :: 0 <= i < |db'.users| ==> db'.users[i] == if i < |db.users| then db.users[i] else row;
    }
  }

  /** Redemption is single-use: once a key has produced a user row, every later activation of it is refused. */
  lemma KeyRedeemedOnce(db: Db, key: string, u1: int, n1: string, id1: string, u2: int, n2: string, id2: string)
    requires Valid(db)
    requires Activate(db, key, u1, n1, id1).0 != db
    ensures var db1 := Activate(db, key, u1, n1, id1).0;
            Activate(db1, key, u2, n2, id2) == (db1, Err(KeyAlreadyUsed))
  {
    var db1 := Activate(db, key, u1, n1, id1).0;
    var i := FindKey(db.keys, key).value;
    ActivatePreservesValid(db, key, u1, n1, id1);
    assert db1.keys[i].key == key && db1.keys[i].used;
    ActivateUsedKey(db1, key, u2, n2, id2, i);
  }

  // ---------------------------------------------------------------------
  // Queries: get_all_users, get_keys_list, get_stats
  // ---------------------------------------------------------------------

  /** The number of active rows, counted from the last row backwards, independently of the query. */
  function ActiveCount(users: seq<User>): nat
    decreases |users|
  {
    if |users| == 0 then 0
    else ActiveCount(users[..|users| - 1]) + (if users[|users| - 1].active then 1 else 0)
  }

  /** `SELECT user_uuid, path FROM users WHERE is_active = 1`, in rowid order. */
  function ActiveUsers(users: seq<User>): (r: seq<(string, string)>)
    ensures |r| <= |users|
    ensures (forall i :: 0 <= i < |users| ==> !users[i].active) ==> r == []
    ensures forall row :: row in r <==>
              exists i :: 0 <= i < |users| && users[i].active && row == (users[i].uuid, users[i].path)
  {
    if |users| == 0 then []
    else
      var rest := ActiveUsers(users[1..]);
      assert forall i :: 1 <= i < |users| ==> users[i] == users[1..][i - 1];
      if users[0].active then [(users[0].uuid, users[0].path)] + rest else rest
  }

  /** The query distributes over concatenation: it keeps the table's order and each table contributes its own rows in place. */
  lemma {:induction false} ActiveUsersAppend(a: seq<User>, b: seq<User>)
    ensures ActiveUsers(a + b) == ActiveUsers(a) + ActiveUsers(b)
    decreases |a|
  {
    if |a| == 0 {
      assert a + b == b;
    } else {
      assert (a + b)[1..] == a[1..] + b;
      ActiveUsersAppend(a[1..], b);
    }
  }

  /** The query yields one result per active row: a row stored twice appears twice, an active row is never dropped. */
  lemma {:induction false} ActiveUsersCount(users: seq<User>)
    ensures |ActiveUsers(users)| == ActiveCount(users)
    decreases |users|
  {
    if |users| > 0 {
      var init := users[..|users| - 1];
      assert users == init + [users[|users| - 1]];
      ActiveUsersAppend(init, [users[|users| - 1]]);
      ActiveUsersCount(init);
    }
  }

  function Min(a: nat, b: nat): nat {
    if a < b then a else b
  }

  /**
   * `ORDER BY id DESC LIMIT limit` on a table kept in rowid order: the last
   * `limit` rows, last first.
   */
  function NewestFirst(keys: seq<Key>, limit: nat): (r: seq<Key>)
    ensures |r| == Min(limit, |keys|)
    ensures forall i :: 0 <= i < |r| ==> r[i] == keys[|keys| - 1 - i]
  {
    if |keys| == 0 || limit == 0 then []
    else [keys[|keys| - 1]] + NewestFirst(keys[..|keys| - 1], limit - 1)
  }

  /**
   * Since ids grow along the table, the listed keys come in strictly
   * decreasing id order and every key left off the list is older than
   * every key on it.
   */
  lemma NewestFirstOrder(keys: seq<Key>, limit: nat)
    requires IdsIncreasing(keys)
    ensures var r := NewestFirst(keys, limit);
            forall i, j :: 0 <= i < j < |r| ==> r[i].id > r[j].id
    ensures var r := NewestFirst(keys, limit);
            forall k, i :: 0 <= k < |keys| - |r| && 0 <= i < |r| ==> keys[k].id < r[i].id
  {
  }

  /** `get_keys_list()`: key text and used flag of the fifteen newest keys, newest first. */
  function KeysList(db: Db): (r: seq<(string, bool)>)
    ensures |r| == Min(KeysListLimit, |db.keys|)
    ensures forall i :: 0 <= i < |r| ==>
              var k := db.keys[|db.keys| - 1 - i]; r[i] == (k.key, k.used)
  {
    var rows := NewestFirst(db.keys, KeysListLimit);
    seq(|rows|, i requires 0 <= i < |rows| => (rows[i].key, rows[i].used))
  }

  /** Number of keys with `is_used = 0`. */
  function FreeKeys(keys: seq<Key>): (n: nat)
    ensures n <= |keys|
  {
    if |keys| == 0 then 0
    else (if keys[0].used then 0 else 1) + FreeKeys(keys[1..])
  }

  /** `get_stats()`: the number of users and of unused keys. */
  function Stats(db: Db): (r: (nat, nat))
    ensures r.0 == |db.users| && r.1 <= |db.keys|
  {
    (|db.users|, FreeKeys(db.keys))
  }

  lemma {:induction false} FreeKeysAppend(keys: seq<Key>, k: Key)
    ensures FreeKeys(keys + [k]) == FreeKeys(keys) + (if k.used then 0 else 1)
    decreases |keys|
  {
    if |keys| > 0 {
      assert (keys + [k])[1..] == keys[1..] + [k];
      FreeKeysAppend(keys[1..], k);
    }
  }

  /** Marking the one unused row holding `key` removes exactly one free key. */
  lemma {:induction false} FreeKeysMarkUsed(keys: seq<Key>, key: string, userId: int, i: nat)
    requires KeysUnique(keys)
    requires i < |keys| && keys[i].key == key && !keys[i].used
    ensures FreeKeys(MarkUsed(keys, key, userId)) == FreeKeys(keys) - 1
    decreases |keys|
  {
    var r := MarkUsed(keys, key, userId);
    if i == 0 {
      assert forall j :: 1 <= j < |keys| ==> keys[j].key != key;
      assert r[1..] == keys[1..];
    } else {
      assert keys[0].key != key;
      assert r[1..] == MarkUsed(keys[1..], key, userId);
      FreeKeysMarkUsed(keys[1..], key, userId, i - 1);
    }
  }

  /** A new key is one more free key. */
  lemma StatsAfterCreateKey(db: Db, token: seq<Byte>)
    requires |token| == KeyTokenBytes
    ensures var (db', res) := CreateKey(db, token);
            res.Ok? ==> Stats(db') == (Stats(db).0, Stats(db).1 + 1)
  {
    var (db', res) := CreateKey(db, token);
    if res.Ok? {
      var k := db'.keys[|db.keys|];
      assert db'.keys == db.keys + [k];
      FreeKeysAppend(db.keys, k);
    }
  }

  /** Adding one user row and using one free key: one more user, one fewer free key. */
  lemma StatsAfterRedemption(db: Db, db': Db, key: string, userId: int, row: User)
    requires KeysUnique(db.keys)
    requires FindKey(db.keys, key).Some? && !db.keys[FindKey(db.keys, key).value].used
    requires db'.users == db.users + [row]
    requires db'.keys == MarkUsed(db.keys, key, userId)
    ensures Stats(db') == (Stats(db).0 + 1, Stats(db).1 - 1)
  {
    var i := FindKey(db.keys, key).value;
    FreeKeysMarkUsed(db.keys, key, userId, i);
  }

  /** A first activation is one more user and one fewer free key. */
  lemma StatsAfterActivate(db: Db, key: string, userId: int, username: string, freshUuid: string)
    requires Valid(db)
    ensures var db' := Activate(db, key, userId, username, freshUuid).0;
            db' != db ==> Stats(db') == (Stats(db).0 + 1, Stats(db).1 - 1)
  {
    var db' := Activate(db, key, userId, username, freshUuid).0;
    if db' != db {
      StatsAfterRedemption(db, db', key, userId, User(userId, username, freshUuid, UserPath(userId), true));
    }
  }
}

=== FILE: subscription.dfy ===
/**
 * What the single-node service hands to a subscriber (`main.py`): the
 * VLESS share link built from `BASE_URL`, the subscription body (Base64 of
 * the link's UTF-8 bytes, section 4 of RFC 4648) and the `/sub/{path}`
 * handler that looks the path up in the `users` table.
 */
module Subscription {
  import opened Wrappers
  import opened Text
  import Utf8
  import Base64
  import Store

  /** `BASE_URL` when the environment does not set it. */
  const DefaultBaseUrl: string := "https://nefritvpn.onrender.com"

  /**
   * The fixed text of a share link: the scheme, everything between the
   * first and the second copy of the host, and the start of the fragment
   * (the profile name clients show) before the user's path.
   */
  datatype LinkFormat = LinkFormat(scheme: string, query: string, fragmentPrefix: string)

  const Vless: LinkFormat :=
    LinkFormat("vless://", ":443?encryption=none&security=tls&type=ws&path=%2Fvless&host=", "NefritVPN-")

  /** The subscription refresh period, in hours, sent in `Profile-Update-Interval`. */
  const UpdateIntervalHours: string := "12"

  /** The host the link points at: `BASE_URL` with every `"https://"` and then every `"http://"` removed. */
  function LinkHost(baseUrl: string): (h: string)
    ensures |h| <= |baseUrl|
  {
    RemoveAll(RemoveAll(baseUrl, "https://"), "http://")
  }

  /** A string without `':'` contains neither scheme prefix. */
  lemma NoColonNoScheme(s: string, pat: string)
    requires ':' !in s
    requires pat == "https://" || pat == "http://"
    ensures NoOccurrence(s, pat)
  {
    forall i | 0 <= i <= |s|
      ensures !(pat <= s[i..])
    {
      if i + |pat| <= |s| {
        var k := if pat == "https://" then 5 else 4;
        assert s[i..][k] != pat[k];
      }
    }
  }

  /** `"http://"` followed by a colon-free host contains no `"https://"`. */
  lemma HttpUrlHasNoHttps(host: string)
    requires ':' !in host
    ensures NoOccurrence("http://" + host, "https://")
  {
    var s := "http://" + host;
    forall i | 0 <= i <= |s|
      ensures !("https://" <= s[i..])
    {
      if i == 0 {
        assert s[i..][4] != "https://"[4];
      } else if i + 8 <= |s| {
        assert s[i + 5] != ':' by {
          if i + 5 < 7 {
            assert s[i + 5] == "http://"[i + 5];
          } else {
            assert s[i + 5] == host[i + 5 - 7];
          }
        }
        assert s[i..][5] != "https://"[5];
      }
    }
  }

  /** For a URL made of a scheme and a colon-free host, the link host is that host. */
  lemma HostOfSchemeUrl(host: string)
    requires ':' !in host
    ensures LinkHost("https://" + host) == host
    ensures LinkHost("http://" + host) == host
  {
    NoColonNoScheme(host, "https://");
    NoColonNoScheme(host, "http://");
    RemoveAllLeading("https://", host);
    RemoveAllAbsent(host, "https://");
    RemoveAllAbsent(host, "http://");
    HttpUrlHasNoHttps(host);
    RemoveAllAbsent("http://" + host, "https://");
    RemoveAllLeading("http://", host);
  }

  /** Links from the default deployment point at the bare domain. */
  lemma DefaultLinkHost()
    ensures LinkHost(DefaultBaseUrl) == "nefritvpn.onrender.com"
  {
    var host := "nefritvpn.onrender.com";
    assert DefaultBaseUrl == "https://" + host;
    assert forall i :: 0 <= i < |host| ==> host[i] != ':';
    HostOfSchemeUrl(host);
  }

  /** A link in format `f`: `<scheme><uuid>@<host><query><host>#<fragment prefix><path>`. */
  function LinkIn(f: LinkFormat, uuid: string, host: string, path: string): string {
    f.scheme + (uuid + "@" + LinkTail(f, host, path))
  }

  /** What follows the `'@'`: the host, the fixed query, the host again and the fragment. */
  function LinkTail(f: LinkFormat, host: string, path: string): string {
    (host + f.query + host) + "#" + (f.fragmentPrefix + path)
  }

  /** `generate_vless_link(user_uuid, path)`. */
  function VlessLink(baseUrl: string, uuid: string, path: string): string {
    LinkIn(Vless, uuid, LinkHost(baseUrl), path)
  }

  // ---------------------------------------------------------------------
  // Reading a link back
  // ---------------------------------------------------------------------

  /** The first position of `c` in `s`. */
  function FirstIndexOf(s: string, c: char): (r: Option<nat>)
    ensures r.None? <==> c !in s
    ensures r.Some? ==> r.value < |s| && s[r.value] == c
    ensures r.Some? ==> forall j :: 0 <= j < r.value ==> s[j] != c
  {
    if |s| == 0 then None
    else if s[0] == c then Some(0)
    else
      match FirstIndexOf(s[1..], c)
      case None => None
      case Some(i) => Some(i + 1)
  }

  /** The last position of `c` in `s`. */
  function LastIndexOf(s: string, c: char): (r: Option<nat>)
    ensures r.None? <==> c !in s
    ensures r.Some? ==> r.value < |s| && s[r.value] == c
    ensures r.Some? ==> forall j :: r.value < j < |s| ==> s[j] != c
  {
    if |s| == 0 then None
    else if s[|s| - 1] == c then Some(|s| - 1)
    else
      match LastIndexOf(s[..|s| - 1], c)
      case None => None
      case Some(i) => Some(i)
  }

  lemma FirstIndexIs(s: string, c: char, k: nat)
    requires k < |s| && s[k] == c
    requires forall j :: 0 <= j < k ==> s[j] != c
    ensures FirstIndexOf(s, c) == Some(k)
  {
    var r := FirstIndexOf(s, c);
    assert r.value <= k;
  }

  lemma LastIndexIs(s: string, c: char, k: nat)
    requires k < |s| && s[k] == c
    requires forall j :: k < j < |s| ==> s[j] != c
    ensures LastIndexOf(s, c) == Some(k)
  {
    var r := LastIndexOf(s, c);
    assert r.value >= k;
  }

  lemma SplitAt<T>(s: seq<T>, i: nat)
    requires i < |s|
    ensures s == s[..i] + [s[i]] + s[i + 1..]
  {
  }

  lemma PrefixSplit<T>(p: seq<T>, s: seq<T>)
    requires p <= s
    ensures s == p + s[|p|..]
  {
  }

  /** The host out of `host + query + host`. */
  function ParseHost(f: LinkFormat, mid: string): Option<string> {
    if |mid| < |f.query| || (|mid| - |f.query|) % 2 != 0 then None
    else
      var host := mid[..(|mid| - |f.query|) / 2];
      if mid == host + f.query + host then Some(host) else None
  }

  /** The host and the path out of a link's tail: the path follows the last `'#'`. */
  function ParseTail(f: LinkFormat, t: string): Option<(string, string)> {
    match LastIndexOf(t, '#')
    case None => None
    case Some(h) =>
      var frag := t[h + 1..];
      if !(f.fragmentPrefix <= frag) then None
      else
        match ParseHost(f, t[..h])
        case None => None
        case Some(host) => Some((host, frag[|f.fragmentPrefix|..]))
  }

  /** Reads a link in format `f` back into its uuid (up to the first `'@'`), host and path. */
  function ParseLinkIn(f: LinkFormat, s: string): Option<(string, string, string)> {
    if !(f.scheme <= s) then None
    else
      var rest := s[|f.scheme|..];
      match FirstIndexOf(rest, '@')
      case None => None
      case Some(a) =>
        match ParseTail(f, rest[a + 1..])
        case None => None
        case Some(hp) => Some((rest[..a], hp.0, hp.1))
  }

  /** Reads a VLESS share link back. */
  function ParseLink(s: string): Option<(string, string, string)> {
    ParseLinkIn(Vless, s)
  }

  lemma ParseHostIff(f: LinkFormat, mid: string, host: string)
    ensures ParseHost(f, mid) == Some(host) <==> mid == host + f.query + host
  {
    if mid == host + f.query + host {
      assert (|mid| - |f.query|) / 2 == |host|;
      assert mid[..|host|] == host;
    }
  }

  lemma ParseTailOf(f: LinkFormat, host: string, path: string)
    requires '#' !in f.fragmentPrefix && '#' !in path
    ensures ParseTail(f, LinkTail(f, host, path)) == Some((host, path))
  {
    var mid := host + f.query + host;
    var frag := f.fragmentPrefix + path;
    var t := LinkTail(f, host, path);
    assert '#' !in frag by {
      assert forall j :: 0 <= j < |frag| ==> frag[j] == if j < |f.fragmentPrefix| then f.fragmentPrefix[j] else path[j - |f.fragmentPrefix|];
    }
    assert forall j :: |mid| < j < |t| ==> t[j] == frag[j - |mid| - 1];
    LastIndexIs(t, '#', |mid|);
    assert t[..|mid|] == mid;
    assert t[|mid| + 1..] == frag;
    ParseHostIff(f, mid, host);
    assert frag[|f.fragmentPrefix|..] == path;
  }

  lemma ParsedTail(f: LinkFormat, t: string)
    requires ParseTail(f, t).Some?
    ensures var (host, path) := ParseTail(f, t).value;
            t == LinkTail(f, host, path) && '#' !in path
  {
    var h := LastIndexOf(t, '#').value;
    var frag := t[h + 1..];
    var host := ParseHost(f, t[..h]).value;
    var path := frag[|f.fragmentPrefix|..];
    ParseHostIff(f, t[..h], host);
    assert frag == f.fragmentPrefix + path;
    assert '#' !in path by {
      assert forall j :: 0 <= j < |path| ==> path[j] == t[h + 1 + |f.fragmentPrefix| + j];
    }
    SplitAt(t, h);
  }

  lemma NoneBefore(s: string, c: char, k: nat)
    requires k <= |s|
    requires forall j :: 0 <= j < k ==> s[j] != c
    ensures c !in s[..k]
  {
    assert forall j :: 0 <= j < k ==> s[..k][j] == s[j];
  }

  /** What follows the scheme splits at the first `'@'` into a uuid and a link tail. */
  lemma ParsedRest(f: LinkFormat, rest: string)
    requires FirstIndexOf(rest, '@').Some?
    requires ParseTail(f, rest[FirstIndexOf(rest, '@').value + 1..]).Some?
    ensures var a := FirstIndexOf(rest, '@').value;
            var hp := ParseTail(f, rest[a + 1..]).value;
            rest == rest[..a] + "@" + LinkTail(f, hp.0, hp.1) && '@' !in rest[..a] && '#' !in hp.1
  {
    var a := FirstIndexOf(rest, '@').value;
    ParsedTail(f, rest[a + 1..]);
    NoneBefore(rest, '@', a);
    SplitAt(rest, a);
  }

  /**
   * A link reads back to the uuid, host and path it was built from, exactly
   * when the uuid has no `'@'` and the path no `'#'` (the fragment prefix
   * having none either).
   */
  lemma ParseLinkInOfLink(f: LinkFormat, uuid: string, host: string, path: string)
    requires '#' !in f.fragmentPrefix
    ensures ParseLinkIn(f, LinkIn(f, uuid, host, path)) == Some((uuid, host, path)) <==> '@' !in uuid && '#' !in path
  {
    var s := LinkIn(f, uuid, host, path);
    var t := LinkTail(f, host, path);
    var rest := uuid + "@" + t;
    assert s[|f.scheme|..] == rest;
    if '@' !in uuid && '#' !in path {
      assert forall j :: 0 <= j < |uuid| ==> rest[j] == uuid[j];
      FirstIndexIs(rest, '@', |uuid|);
      assert rest[|uuid| + 1..] == t;
      assert rest[..|uuid|] == uuid;
      ParseTailOf(f, host, path);
    } else if ParseLinkIn(f, s) == Some((uuid, host, path)) {
      ParsedPartsIn(f, s);
    }
  }

  /** Whatever a string reads back to rebuilds that string, with a uuid free of `'@'` and a path free of `'#'`. */
  lemma ParsedPartsIn(f: LinkFormat, s: string)
    requires ParseLinkIn(f, s).Some?
    ensures var (uuid, host, path) := ParseLinkIn(f, s).value;
            LinkIn(f, uuid, host, path) == s && '@' !in uuid && '#' !in path
  {
    var rest := s[|f.scheme|..];
    var a := FirstIndexOf(rest, '@').value;
    var hp := ParseTail(f, rest[a + 1..]).value;
    assert ParseLinkIn(f, s).value == (rest[..a], hp.0, hp.1);
    ParsedRest(f, rest);
    PrefixSplit(f.scheme, s);
  }

  lemma VlessFragmentHasNoHash()
    ensures '#' !in Vless.fragmentPrefix
  {
    assert forall j :: 0 <= j < |Vless.fragmentPrefix| ==> Vless.fragmentPrefix[j] != '#';
  }

  /** A VLESS share link reads back to its uuid, host and path exactly when the uuid has no `'@'` and the path no `'#'`. */
  lemma ParseLinkOfLink(uuid: string, host: string, path: string)
    ensures ParseLink(LinkIn(Vless, uuid, host, path)) == Some((uuid, host, path)) <==> '@' !in uuid && '#' !in path
  {
    VlessFragmentHasNoHash();
    ParseLinkInOfLink(Vless, uuid, host, path);
  }

  /** Every string that reads back as a VLESS share link is the link of what it reads back to. */
  lemma ParsedParts(s: string)
    requires ParseLink(s).Some?
    ensures var (uuid, host, path) := ParseLink(s).value;
            LinkIn(Vless, uuid, host, path) == s && '@' !in uuid && '#' !in path
  {
    ParsedPartsIn(Vless, s);
  }

  /** The links the service hands out read back to the user's uuid and path. */
  lemma VlessLinkReadsBack(baseUrl: string, uuid: string, path: string)
    requires '@' !in uuid && '#' !in path
    ensures ParseLink(VlessLink(baseUrl, uuid, path)) == Some((uuid, LinkHost(baseUrl), path))
  {
    ParseLinkOfLink(uuid, LinkHost(baseUrl), path);
  }

  // ---------------------------------------------------------------------
  // The subscription body and the /sub/{path} handler
  // ---------------------------------------------------------------------

  /** `generate_subscription(user_uuid, path)`: Base64 of the link's UTF-8 bytes. */
  function SubscriptionBody(baseUrl: string, uuid: string, path: string): (body: string)
    ensures var bytes := Base64.Decode(body);
            bytes.Some? && Utf8.Decode(bytes.value) == Some(VlessLink(baseUrl, uuid, path))
  {
    var bytes := Utf8.Encode(VlessLink(baseUrl, uuid, path));
    Base64.DecodeEncode(bytes);
    Utf8.DecodeEncode(VlessLink(baseUrl, uuid, path));
    Base64.Encode(bytes)
  }

  /** An HTTP reply: status, body text, content type and extra headers. */
  datatype Response = Response(status: nat, text: string, contentType: string, headers: seq<(string, string)>)

  const NotFound: Response := Response(404, "Not found", "text/plain", [])

  /**
   * `GET /sub/{path}`: the first user row with that path; a missing or
   * inactive row is 404 `"Not found"`, otherwise the subscription body as
   * `text/plain` with a twelve-hour update interval.
   */
  function HandleSubscription(db: Store.Db, baseUrl: string, path: string): (r: Response)
    ensures r.status == 404 ==> r == NotFound
    ensures r.status != 404 ==>
              && r.status == 200
              && r.contentType == "text/plain"
              && r.headers == [("Profile-Update-Interval", UpdateIntervalHours)]
              && (exists i :: 0 <= i < |db.users| && db.users[i].path == path && db.users[i].active
                                && r.text == SubscriptionBody(baseUrl, db.users[i].uuid, path))
  {
    match Store.FindPath(db.users, path)
    case None => NotFound
    case Some(i) =>
      if !db.users[i].active then NotFound
      else Response(200, SubscriptionBody(baseUrl, db.users[i].uuid, path), "text/plain",
                    [("Profile-Update-Interval", UpdateIntervalHours)])
  }

  /**
   * With unique paths, `/sub/{path}` serves exactly the active users, and
   * what it serves decodes to that user's share link.
   */
  lemma SubscriptionServesActiveUsers(db: Store.Db, baseUrl: string, path: string)
    requires Store.UsersUnique(db.users)
    ensures var r := HandleSubscription(db, baseUrl, path);
            r.status == 200 <==> exists i :: 0 <= i < |db.users| && db.users[i].path == path && db.users[i].active
    ensures forall i :: 0 <= i < |db.users| && db.users[i].path == path && db.users[i].active ==>
              var r := HandleSubscription(db, baseUrl, path);
              var bytes := Base64.Decode(r.text);
              bytes.Some? && Utf8.Decode(bytes.value) == Some(VlessLink(baseUrl, db.users[i].uuid, path))
  {
    forall i | 0 <= i < |db.users| && db.users[i].path == path
      ensures Store.FindPath(db.users, path) == Some(i)
    {
    }
  }
}

=== FILE: supervisor.dfy ===
/**
 * Supervision of a fleet node's proxy-engine process (`start_xray`,
 * `stop_xray`, `restart_xray`, the health flag and the master's
 * `health_checker`). The operating system is abstracted: a spawn either
 * succeeds or raises (`spawnOk`), a running process may die at any time
 * (`Crash`), and the master's bounded wait on termination ends one of three
 * ways (`WaitOutcome`). Every spawned process is tagged with the config it
 * read at start-up.
 */
module Supervisor {
  import opened Wrappers
  import opened XrayConfig
  import Mirror

  /** The `xray_process` global: none, or a process that is running or has exited (`poll()` is not None). */
  datatype Handle = NoProcess | Running(config: Config) | Exited(config: Config)

  /** The supervisor's state: the process handle and the config file on disk (absent before the first write). */
  datatype Engine = Engine(handle: Handle, configFile: Option<Config>)

  /** How the master's `wait(timeout=5)` after `terminate()` ended. */
  datatype WaitOutcome = ExitedInTime | TimedOut | WaitFailed

  /** What the master's `stop_xray` reported. */
  datatype StopEvent = NothingToStop | Stopped | Killed | StopError

  /** The state of a node that has not started anything yet. */
  const Initial: Engine := Engine(NoProcess, None)

  /**
   * `generate_xray_config()`: rewrite the config file from the current
   * mirror; the file then lists the mirror's uuids (or the placeholder) and
   * the running process, if any, is untouched.
   */
  function WriteConfig(e: Engine, m: Mirror.Mirror, placeholder: string): (r: Engine)
    ensures r.handle == e.handle
    ensures r.configFile == Some(NodeConfig(m, placeholder))
    ensures |m| > 0 ==> ClientIds(r.configFile.value) == Mirror.Uuids(m)
    ensures |m| == 0 ==> ClientIds(r.configFile.value) == [placeholder]
  {
    e.(configFile := Some(NodeConfig(m, placeholder)))
  }

  /**
   * `start_xray()` (both variants): write the config first if the file is
   * missing, then spawn. A successful spawn replaces the handle with a
   * running process reading the file; a failed spawn returns False and
   * leaves the handle as it was.
   */
  function Start(e: Engine, m: Mirror.Mirror, placeholder: string, spawnOk: bool): (r: (Engine, bool))
    ensures r.1 == spawnOk
    ensures e.configFile.Some? ==> r.0.configFile == e.configFile
    ensures e.configFile.None? ==> r.0.configFile == Some(NodeConfig(m, placeholder))
    ensures spawnOk ==> r.0.handle == Running(r.0.configFile.value)
    ensures !spawnOk ==> r.0.handle == e.handle
  {
    var e1 := if e.configFile.None? then WriteConfig(e, m, placeholder) else e;
    if spawnOk then (e1.(handle := Running(e1.configFile.value)), true)
    else (e1, false)
  }

  /**
   * The master's `stop_xray()`: nothing without a handle; otherwise
   * terminate and wait up to five seconds, kill on timeout, log any other
   * error, and in every case (`finally`) drop the handle.
   */
  function MasterStop(e: Engine, wait: WaitOutcome): (r: (Engine, StopEvent))
    ensures r.0.handle == NoProcess
    ensures r.0.configFile == e.configFile
    ensures r.1 == NothingToStop <==> e.handle == NoProcess
    ensures e.handle != NoProcess && wait == TimedOut ==> r.1 == Killed
  {
    if e.handle == NoProcess then (e, NothingToStop)
    else
      var event := match wait
        case ExitedInTime => Stopped
        case TimedOut => Killed
        case WaitFailed => StopError;
      (e.(handle := NoProcess), event)
  }

  /** The worker's `stop_xray()`: terminate, wait without a bound, drop the handle. */
  function WorkerStop(e: Engine): (r: Engine)
    ensures r.handle == NoProcess
    ensures r.configFile == e.configFile
    ensures e.handle == NoProcess ==> r == e
  {
    if e.handle == NoProcess then e else e.(handle := NoProcess)
  }

  /** The master's `restart_xray()` (its lock and sleeps aside): stop, regenerate, start. */
  function MasterRestart(e: Engine, m: Mirror.Mirror, placeholder: string, wait: WaitOutcome, spawnOk: bool): (r: Engine)
    ensures r.configFile == Some(NodeConfig(m, placeholder))
    ensures spawnOk ==> r.handle == Running(NodeConfig(m, placeholder))
    ensures !spawnOk ==> r.handle == NoProcess
  {
    var stopped := MasterStop(e, wait).0;
    Start(WriteConfig(stopped, m, placeholder), m, placeholder, spawnOk).0
  }

  /** The worker's `restart_xray()`: stop, regenerate, start, with no lock. */
  function WorkerRestart(e: Engine, m: Mirror.Mirror, placeholder: string, spawnOk: bool): (r: Engine)
    ensures r.configFile == Some(NodeConfig(m, placeholder))
    ensures spawnOk ==> r.handle == Running(NodeConfig(m, placeholder))
    ensures !spawnOk ==> r.handle == NoProcess
  {
    Start(WriteConfig(WorkerStop(e), m, placeholder), m, placeholder, spawnOk).0
  }

  /** The outside world: a running engine process dies. */
  function Crash(e: Engine): (r: Engine)
    ensures e.handle.Running? ==> r.handle == Exited(e.handle.config)
    ensures !e.handle.Running? ==> r == e
  {
    match e.handle
    case Running(c) => e.(handle := Exited(c))
    case _ => e
  }

  /** The `xray` flag of `/health`: a handle exists and `poll()` is None. */
  predicate EngineAlive(e: Engine) {
    e.handle.Running?
  }

  /**
   * One pass of the master's `health_checker` loop: restart when a handle
   * exists and its process has exited; leave everything alone otherwise
   * (including when there is no handle at all). Returns whether it restarted.
   */
  function HealthCheck(e: Engine, m: Mirror.Mirror, placeholder: string, wait: WaitOutcome, spawnOk: bool): (r: (Engine, bool))
    ensures r.1 <==> e.handle.Exited?
    ensures !r.1 ==> r.0 == e
    ensures r.1 ==> r.0 == MasterRestart(e, m, placeholder, wait, spawnOk)
  {
    if e.handle.Exited? then (MasterRestart(e, m, placeholder, wait, spawnOk), true)
    else (e, false)
  }

  /** The environment of one health-check pass: the random placeholder id and the OS outcomes. */
  datatype Tick = Tick(placeholder: string, wait: WaitOutcome, spawnOk: bool)

  /** Successive health-check passes over an unchanged mirror. */
  function HealthChecks(e: Engine, m: Mirror.Mirror, ticks: seq<Tick>): Engine
    decreases |ticks|
  {
    if |ticks| == 0 then e
    else
      var t := ticks[0];
      HealthChecks(HealthCheck(e, m, t.placeholder, t.wait, t.spawnOk).0, m, ticks[1..])
  }

  /**
   * A restart whose spawn fails leaves no handle, and no number of
   * health-check passes ever restarts it: the engine stays down until some
   * request triggers another restart.
   */
  lemma {:induction false} FailedSpawnIsNeverRetried(e: Engine, m: Mirror.Mirror, placeholder: string, wait: WaitOutcome, ticks: seq<Tick>)
    ensures var down := MasterRestart(e, m, placeholder, wait, false);
            && down.handle == NoProcess
            && HealthChecks(down, m, ticks) == down
    decreases |ticks|
  {
    var down := MasterRestart(e, m, placeholder, wait, false);
    if |ticks| > 0 {
      FailedSpawnIsNeverRetried(e, m, placeholder, wait, ticks[1..]);
    }
  }

  /** A crashed engine is brought back by the next health check whose spawn succeeds, with a config built from the current mirror. */
  lemma CrashIsRecovered(e: Engine, m: Mirror.Mirror, t: Tick)
    requires EngineAlive(e)
    requires t.spawnOk
    ensures var r := HealthCheck(Crash(e), m, t.placeholder, t.wait, t.spawnOk);
            && r.1
            && EngineAlive(r.0)
            && r.0.handle.config == NodeConfig(m, t.placeholder)
  {
  }

  /** `main()` of a fleet node: write the config for the (empty) mirror, then start. */
  function Boot(placeholder: string, spawnOk: bool): (r: Engine)
    ensures r.configFile == Some(NodeConfig([], placeholder))
    ensures EngineAlive(r) <==> spawnOk
  {
    Start(WriteConfig(Initial, [], placeholder), [], placeholder, spawnOk).0
  }
}

=== FILE: text.dfy ===
/**
 * Character- and string-level helpers the services use: bytes, Python's
 * `str.replace(pat, "")`, `str.lower()`, `str(int)` and `bytes.hex().upper()`.
 */
module Text {
  import opened Wrappers

  /** One octet, as Python's `bytes` elements are. */
  type Byte = x: int | 0 <= x < 256

  // ---------------------------------------------------------------------
  // Occurrences and Python's str.replace(pat, "")
  // ---------------------------------------------------------------------

  /** `pat` occurs nowhere in `s`. */
  ghost predicate NoOccurrence(s: string, pat: string) {
    forall i :: 0 <= i <= |s| ==> !(pat <= s[i..])
  }

  /**
   * `s.replace(pat, "")` in Python: scan left to right and drop every
   * non-overlapping occurrence of `pat`; scanning resumes after each
   * dropped occurrence, so characters around it are not re-examined
   * together.
   */
  function RemoveAll(s: string, pat: string): (r: string)
    requires |pat| > 0
    ensures |r| <= |s|
    ensures |s| < |pat| ==> r == s
    decreases |s|
  {
    if |s| == 0 then ""
    else if pat <= s then RemoveAll(s[|pat|..], pat)
    else [s[0]] + RemoveAll(s[1..], pat)
  }

  /** Removing a pattern that does not occur leaves the string unchanged. */
  lemma {:induction false} RemoveAllAbsent(s: string, pat: string)
    requires |pat| > 0
    requires NoOccurrence(s, pat)
    ensures RemoveAll(s, pat) == s
    decreases |s|
  {
    if |s| > 0 {
      assert s[0..] == s;
      assert !(pat <= s);
      assert NoOccurrence(s[1..], pat) by {
        forall i | 0 <= i <= |s[1..]|
          ensures !(pat <= s[1..][i..])
        {
          assert s[1..][i..] == s[i + 1..];
        }
      }
      RemoveAllAbsent(s[1..], pat);
      assert [s[0]] + s[1..] == s;
    }
  }

  /** A leading occurrence is dropped and scanning continues after it. */
  lemma RemoveAllLeading(pat: string, rest: string)
    requires |pat| > 0
    ensures RemoveAll(pat + rest, pat) == RemoveAll(rest, pat)
  {
    assert pat <= pat + rest;
    assert (pat + rest)[|pat|..] == rest;
  }

  // ---------------------------------------------------------------------
  // Python's str.lower(), as far as it can produce ASCII letters
  // ---------------------------------------------------------------------

  /** KELVIN SIGN, the only non-ASCII character whose lower case is a single ASCII letter. */
  const KelvinSign: char := '\U{212A}'

  /**
   * Lower-cases one character: ASCII `A`..`Z` and the Kelvin sign (which
   * Python lower-cases to `k`). Every other character is kept; the real
   * mapping of other non-ASCII characters never yields an ASCII letter, so
   * comparisons of the result against ASCII text come out the same.
   */
  function LowerChar(c: char): (r: char)
    ensures 'A' <= c <= 'Z' ==> r as int == c as int + 32
    ensures !('A' <= c <= 'Z') && c != KelvinSign ==> r == c
  {
    if 'A' <= c <= 'Z' then (c as int + 32) as char
    else if c == KelvinSign then 'k'
    else c
  }

  /**
   * `s.lower()`, character by character. Python also lengthens a few
   * characters (U+0130 becomes `i` followed by U+0307); those results keep
   * a non-ASCII character, as they do here, so equality with ASCII text is
   * decided the same way.
   */
  function Lower(s: string): (r: string)
    ensures |r| == |s|
    ensures forall i :: 0 <= i < |s| ==> r[i] == LowerChar(s[i])
    ensures forall i :: 0 <= i < |r| ==> !('A' <= r[i] <= 'Z')
    ensures (forall i :: 0 <= i < |s| ==> !('A' <= s[i] <= 'Z') && s[i] != KelvinSign) ==> r == s
  {
    seq(|s|, i requires 0 <= i < |s| => LowerChar(s[i]))
  }

  /** The characters whose lower case is the ASCII lower-case letter `c`. */
  lemma LowerCharPreimage(x: char, c: char)
    requires 'a' <= c <= 'z'
    ensures LowerChar(x) == c <==>
              x == c || x as int == c as int - 32 || (c == 'k' && x == KelvinSign)
  {
  }

  // ---------------------------------------------------------------------
  // Decimal rendering: Python's str(n) / f"{n}"
  // ---------------------------------------------------------------------

  predicate IsDigit(c: char) {
    '0' <= c <= '9'
  }

  function DigitChar(d: int): (c: char)
    requires 0 <= d < 10
    ensures IsDigit(c)
  {
    ('0' as int + d) as char
  }

  /** Decimal digits of a natural number, most significant first, no leading zeros. */
  function NatToString(n: nat): (r: string)
    ensures |r| > 0
    ensures forall i :: 0 <= i < |r| ==> IsDigit(r[i])
    decreases n
  {
    if n < 10 then [DigitChar(n)]
    else NatToString(n / 10) + [DigitChar(n % 10)]
  }

  /** `str(n)`: a minus sign before the digits of `-n` when `n` is negative. */
  function IntToString(n: int): (r: string)
    ensures |r| > 0
    ensures n < 0 <==> r[0] == '-'
  {
    if n < 0 then "-" + NatToString(-n) else NatToString(n)
  }

  /** The value of a string of decimal digits (reference reading of `int(s)`). */
  function DigitsValue(s: string): nat
    requires forall i :: 0 <= i < |s| ==> IsDigit(s[i])
  {
    if |s| == 0 then 0
    else
      assert IsDigit(s[|s| - 1]);
      DigitsValue(s[..|s| - 1]) * 10 + (s[|s| - 1] as int - '0' as int)
  }

  lemma {:induction false} NatToStringValue(n: nat)
    ensures DigitsValue(NatToString(n)) == n
    decreases n
  {
    var r := NatToString(n);
    if n >= 10 {
      NatToStringValue(n / 10);
      assert r[..|r| - 1] == NatToString(n / 10);
    }
  }

  /** Distinct integers are rendered as distinct strings. */
  lemma IntToStringInjective(a: int, b: int)
    ensures IntToString(a) == IntToString(b) ==> a == b
  {
    if IntToString(a) == IntToString(b) {
      if a < 0 {
        assert b < 0;
        assert NatToString(-a) == IntToString(a)[1..] == IntToString(b)[1..] == NatToString(-b);
        NatToStringValue(-a);
        NatToStringValue(-b);
      } else {
        assert b >= 0;
        NatToStringValue(a);
        NatToStringValue(b);
      }
    }
  }

  // ---------------------------------------------------------------------
  // Upper-case hexadecimal: bytes.hex().upper()
  // ---------------------------------------------------------------------

  predicate IsUpperHex(c: char) {
    '0' <= c <= '9' || 'A' <= c <= 'F'
  }

  function HexDigit(d: int): (c: char)
    requires 0 <= d < 16
    ensures IsUpperHex(c)
  {
    if d < 10 then ('0' as int + d) as char else ('A' as int + d - 10) as char
  }

  function HexValue(c: char): (d: int)
    requires IsUpperHex(c)
    ensures 0 <= d < 16
  {
    if c <= '9' then c as int - '0' as int else c as int - 'A' as int + 10
  }

  /** Two upper-case hex digits per byte, high nibble first. */
  function HexUpper(b: seq<Byte>): (r: string)
    ensures |r| == 2 * |b|
    ensures forall i :: 0 <= i < |r| ==> IsUpperHex(r[i])
  {
    if |b| == 0 then ""
    else [HexDigit(b[0] / 16), HexDigit(b[0] % 16)] + HexUpper(b[1..])
  }

  /** Reads pairs of upper-case hex digits back into bytes. */
  function HexDecode(s: string): seq<Byte>
    requires |s| % 2 == 0
    requires forall i :: 0 <= i < |s| ==> IsUpperHex(s[i])
  {
    if |s| == 0 then []
    else [HexValue(s[0]) * 16 + HexValue(s[1])] + HexDecode(s[2..])
  }

  /** The hex rendering loses nothing: it decodes back to the same bytes. */
  lemma {:induction false} HexRoundTrip(b: seq<Byte>)
    ensures HexDecode(HexUpper(b)) == b
  {
    if |b| > 0 {
      var s := HexUpper(b);
      assert s[2..] == HexUpper(b[1..]);
      HexRoundTrip(b[1..]);
      assert HexValue(HexDigit(b[0] / 16)) == b[0] / 16;
      assert HexValue(HexDigit(b[0] % 16)) == b[0] % 16;
      assert [b[0]] + b[1..] == b;
    }
  }
}

=== FILE: utf8.dfy ===
/**
 * UTF-8 (RFC 3629), the encoding Python's `str.encode()` uses by default.
 * Dafny characters are Unicode scalar values, so every string is encodable.
 */
module Utf8 {
  import opened Wrappers
  import opened Text

  predicate IsContinuation(b: Byte) {
    0x80 <= b < 0xC0
  }

  /** The one- to four-byte encoding of a single scalar value. */
  function EncodeChar(c: char): (r: seq<Byte>)
    ensures 1 <= |r| <= 4
    ensures |r| == 1 <==> c as int < 0x80
    ensures forall i :: 1 <= i < |r| ==> IsContinuation(r[i])
  {
    var cp := c as int;
    if cp < 0x80 then [cp]
    else if cp < 0x800 then [0xC0 + cp / 64, 0x80 + cp % 64]
    else if cp < 0x10000 then [0xE0 + cp / 4096, 0x80 + (cp / 64) % 64, 0x80 + cp % 64]
    else [0xF0 + cp / 262144, 0x80 + (cp / 4096) % 64, 0x80 + (cp / 64) % 64, 0x80 + cp % 64]
  }

  /** `s.encode("utf-8")`. */
  function Encode(s: string): (r: seq<Byte>)
    ensures |s| <= |r| <= 4 * |s|
  {
    if |s| == 0 then [] else EncodeChar(s[0]) + Encode(s[1..])
  }

  /** A code point that is a Unicode scalar value, i.e. a Dafny `char`. */
  predicate IsScalar(cp: int) {
    (0 <= cp < 0xD800) || (0xE000 <= cp < 0x11_0000)
  }

  /**
   * Decodes the first character of `b`, returning it with the number of
   * bytes it used; overlong forms, surrogates and values past U+10FFFF are
   * refused.
   */
  function DecodeFirst(b: seq<Byte>): (r: Option<(char, nat)>)
    ensures r.Some? ==> 1 <= r.value.1 <= |b|
  {
    if |b| == 0 then None
    else if b[0] < 0x80 then Some((b[0] as char, 1))
    else if 0xC0 <= b[0] < 0xE0 && |b| >= 2 && IsContinuation(b[1]) then
      var cp := (b[0] as int - 0xC0) * 64 + (b[1] as int - 0x80);
      if 0x80 <= cp then Some((cp as char, 2)) else None
    else if 0xE0 <= b[0] < 0xF0 && |b| >= 3 && IsContinuation(b[1]) && IsContinuation(b[2]) then
      var cp := (b[0] as int - 0xE0) * 4096 + (b[1] as int - 0x80) * 64 + (b[2] as int - 0x80);
      if 0x800 <= cp && IsScalar(cp) then Some((cp as char, 3)) else None
    else if 0xF0 <= b[0] < 0xF8 && |b| >= 4 && IsContinuation(b[1]) && IsContinuation(b[2]) && IsContinuation(b[3]) then
      var cp := (b[0] as int - 0xF0) * 262144 + (b[1] as int - 0x80) * 4096 + (b[2] as int - 0x80) * 64 + (b[3] as int - 0x80);
      if 0x10000 <= cp < 0x11_0000 then Some((cp as char, 4)) else None
    else None
  }

  /** `b.decode("utf-8")` in strict mode: `None` where Python raises. */
  function Decode(b: seq<Byte>): Option<string>
    decreases |b|
  {
    if |b| == 0 then Some("")
    else
      match DecodeFirst(b)
      case None => None
      case Some((c, n)) =>
        match Decode(b[n..])
        case None => None
        case Some(rest) => Some([c] + rest)
  }

  lemma DecodeFirstTwo(c: char, rest: seq<Byte>)
    requires 0x80 <= c as int < 0x800
    ensures DecodeFirst(EncodeChar(c) + rest) == Some((c, 2))
  {
    var cp := c as int;
    var b := EncodeChar(c) + rest;
    assert b[0] == 0xC0 + cp / 64 && b[1] == 0x80 + cp % 64;
    assert cp == (cp / 64) * 64 + cp % 64;
  }

  lemma DecodeFirstThree(c: char, rest: seq<Byte>)
    requires 0x800 <= c as int < 0x10000
    ensures DecodeFirst(EncodeChar(c) + rest) == Some((c, 3))
  {
    var cp := c as int;
    var b := EncodeChar(c) + rest;
    assert b[0] == 0xE0 + cp / 4096 && b[1] == 0x80 + (cp / 64) % 64 && b[2] == 0x80 + cp % 64;
    assert cp / 64 == (cp / 4096) * 64 + (cp / 64) % 64;
    assert cp == (cp / 64) * 64 + cp % 64;
    assert (b[0] as int - 0xE0) * 4096 + (b[1] as int - 0x80) * 64 + (b[2] as int - 0x80) == cp;
  }

  lemma DecodeFirstFour(c: char, rest: seq<Byte>)
    requires 0x10000 <= c as int
    ensures DecodeFirst(EncodeChar(c) + rest) == Some((c, 4))
  {
    var cp := c as int;
    var b := EncodeChar(c) + rest;
    assert b[0] == 0xF0 + cp / 262144 && b[1] == 0x80 + (cp / 4096) % 64;
    assert b[2] == 0x80 + (cp / 64) % 64 && b[3] == 0x80 + cp % 64;
    assert cp / 4096 == (cp / 262144) * 64 + (cp / 4096) % 64;
    assert cp / 64 == (cp / 4096) * 64 + (cp / 64) % 64;
    assert cp == (cp / 64) * 64 + cp % 64;
    assert (b[0] as int - 0xF0) * 262144 + (b[1] as int - 0x80) * 4096 + (b[2] as int - 0x80) * 64 + (b[3] as int - 0x80) == cp;
  }

  /** Decoding the encoding of one character, followed by anything, reads back that character. */
  lemma DecodeFirstOfEncodeChar(c: char, rest: seq<Byte>)
    ensures DecodeFirst(EncodeChar(c) + rest) == Some((c, |EncodeChar(c)|))
  {
    var cp := c as int;
    if cp < 0x80 {
    } else if cp < 0x800 {
      DecodeFirstTwo(c, rest);
    } else if cp < 0x10000 {
      DecodeFirstThree(c, rest);
    } else {
      DecodeFirstFour(c, rest);
    }
  }

  /** The encoding round-trips: strict decoding recovers the original string. */
  lemma {:induction false} DecodeEncode(s: string)
    ensures Decode(Encode(s)) == Some(s)
  {
    if |s| > 0 {
      var e := EncodeChar(s[0]);
      var b := Encode(s);
      DecodeFirstOfEncodeChar(s[0], Encode(s[1..]));
      assert b[|e|..] == Encode(s[1..]);
      DecodeEncode(s[1..]);
      assert [s[0]] + s[1..] == s;
    }
  }

  /** On ASCII text the encoding is one byte per character, holding its code. */
  lemma {:induction false} EncodeAscii(s: string)
    requires forall i :: 0 <= i < |s| ==> s[i] as int < 0x80
    ensures |Encode(s)| == |s|
    ensures forall i :: 0 <= i < |s| ==> Encode(s)[i] == s[i] as int
  {
    if |s| > 0 {
      EncodeAscii(s[1..]);
    }
  }
}

=== FILE: wrappers.dfy ===
/** Failure-compatible wrappers shared by every module of the model. */
module Wrappers {

  /** A value that may be absent: a missing row, header, JSON field or key. */
  datatype Option<+T> = None | Some(value: T) {

    /** Returns the value, or `default` when there is none (Python's `d.get(k, default)`). */
    function GetOr(default: T): T {
      match this
      case Some(v) => v
      case None => default
    }
  }

  /** The outcome of an operation that either succeeds with a value or fails with an error. */
  datatype Result<+T, +E> = Ok(value: T) | Err(error: E)
}

=== FILE: xray_config.dfy ===
/**
 * The declarative proxy-engine (Xray) configuration each process writes
 * before starting the engine, and the two generators: the single-node
 * service's (`regenerate_xray_config` in `main.py`), fed by the active-user
 * query, and the fleet nodes' (`generate_xray_config` in `master/main.py`
 * and `worker/main.py`, identical), fed by the local mirror. The engine
 * refuses to start with no clients, so an empty input is replaced by one
 * placeholder client whose random id is a parameter here.
 */
module XrayConfig {
  import opened Wrappers
  import Mirror

  /** One VLESS client entry: `{"id", "flow"}` or `{"id", "level"}`. */
  datatype Client = Client(id: string, flow: Option<string>, level: Option<nat>)

  /** The single VLESS-over-WebSocket inbound listener. */
  datatype Inbound = Inbound(
    port: nat,
    listen: Option<string>,
    protocol: string,
    clients: seq<Client>,
    decryption: string,
    network: string,
    wsPath: string)

  datatype Outbound = Outbound(protocol: string, tag: string)

  datatype Config = Config(logLevel: string, inbound: Inbound, outbound: Outbound, dns: Option<seq<string>>)

  /** Engine port and WebSocket path of the single-node service. */
  const MainPort: nat := 10000
  const MainWsPath: string := "/vless"

  /** Engine port, listen address, path and DNS servers of a fleet node. */
  const NodePort: nat := 10001
  const NodeListen: string := "127.0.0.1"
  const NodeWsPath: string := "/tunnel"
  const NodeDns: seq<string> := ["8.8.8.8", "1.1.1.1"]

  /** The ids of the configured clients, in order. */
  function ClientIds(c: Config): (ids: seq<string>)
    ensures |ids| == |c.inbound.clients|
  {
    seq(|c.inbound.clients|, i requires 0 <= i < |c.inbound.clients| => c.inbound.clients[i].id)
  }

  /** The fixed parts every generated config shares. */
  predicate WellFormedVless(c: Config) {
    && c.logLevel == "warning"
    && c.inbound.protocol == "vless"
    && c.inbound.decryption == "none"
    && c.inbound.network == "ws"
    && c.outbound == Outbound("freedom", "direct")
    && |c.inbound.clients| >= 1
  }

  /**
   * `regenerate_xray_config` in `main.py`: one `{"id": uuid, "flow": ""}`
   * per row `(uuid, path)` of the active-user query, in query order, or the
   * placeholder when there are none; port 10000, WebSocket path `/vless`.
   */
  function MainConfig(rows: seq<(string, string)>, placeholder: string): (c: Config)
    ensures WellFormedVless(c)
    ensures c.inbound.port == MainPort && c.inbound.listen == None && c.inbound.wsPath == MainWsPath
    ensures c.dns == None
    ensures forall k :: 0 <= k < |c.inbound.clients| ==>
              c.inbound.clients[k].flow == Some("") && c.inbound.clients[k].level == None
    ensures |rows| > 0 ==> |ClientIds(c)| == |rows| && forall k :: 0 <= k < |rows| ==> ClientIds(c)[k] == rows[k].0
    ensures |rows| == 0 ==> ClientIds(c) == [placeholder]
  {
    var clients :=
      if |rows| == 0 then [Client(placeholder, Some(""), None)]
      else seq(|rows|, k requires 0 <= k < |rows| => Client(rows[k].0, Some(""), None));
    Config("warning", Inbound(MainPort, None, "vless", clients, "none", "ws", MainWsPath), Outbound("freedom", "direct"), None)
  }

  /**
   * `generate_xray_config` of a fleet node: one `{"id": uuid, "level": 0}`
   * per mirror key in insertion order, or the placeholder when the mirror is
   * empty; listening on 127.0.0.1:10001, WebSocket path `/tunnel`.
   */
  function NodeConfig(m: Mirror.Mirror, placeholder: string): (c: Config)
    ensures WellFormedVless(c)
    ensures c.inbound.port == NodePort && c.inbound.listen == Some(NodeListen) && c.inbound.wsPath == NodeWsPath
    ensures c.dns == Some(NodeDns)
    ensures forall k :: 0 <= k < |c.inbound.clients| ==>
              c.inbound.clients[k].level == Some(0) && c.inbound.clients[k].flow == None
    ensures |m| > 0 ==> ClientIds(c) == Mirror.Uuids(m)
    ensures |m| == 0 ==> ClientIds(c) == [placeholder]
  {
    var clients :=
      if |m| == 0 then [Client(placeholder, None, Some(0))]
      else seq(|m|, k requires 0 <= k < |m| => Client(m[k].uuid, None, Some(0)));
    Config("warning", Inbound(NodePort, Some(NodeListen), "vless", clients, "none", "ws", NodeWsPath), Outbound("freedom", "direct"), Some(NodeDns))
  }

  /**
   * A node's engine admits exactly the mirrored credentials: every key of
   * a non-empty mirror is a client id, every client id is a key, and no
   * client is listed twice.
   */
  lemma NodeConfigMatchesMirror(m: Mirror.Mirror, placeholder: string)
    requires Mirror.Valid(m) && |m| > 0
    ensures var ids := ClientIds(NodeConfig(m, placeholder));
            && (forall u :: u in ids <==> u in Mirror.AsMap(m))
            && (forall i, j :: 0 <= i < j < |ids| ==> ids[i] != ids[j])
  {
    var ids := ClientIds(NodeConfig(m, placeholder));
    forall u
      ensures u in ids <==> u in Mirror.AsMap(m)
    {
      Mirror.KeysAreFound(m, u);
      if u in ids {
        var k :| 0 <= k < |ids| && ids[k] == u;
        assert m[k].uuid == u;
      }
      if u in Mirror.AsMap(m) {
        var k := Mirror.Find(m, u).value;
        assert ids[k] == u;
      }
    }
  }
}
